=== FILE: README.md ===
# Light-racer engine, modelled in Dafny

This project models the discrete engine of the light-racer game, a light-cycle arcade game on an integer grid (`src/App.tsx`, `src/types.ts`).

- The player steers a vehicle that leaves a lethal trail behind it.
- An opponent moves by a random legal-move rule.
- A generated field of obstacles either blocks moves, changes the tick interval (BOOST, SLOW), or teleports the player.

The model has two layers:

- **Values.** Module `Rules` gives each transition of the component as a function on `World`, a snapshot of every state hook the simulation reads or writes. These transitions are: `startGame`, `gameOver`, `togglePause`, `handleHit`, `movePlayer`, `moveOpponent`, one tick of the animation loop, steering, the throttle and its effect on the tick interval. Modules `Types`, `Grid`, `Controls` and `Generation` hold the vocabulary, the grid geometry, the input arithmetic and obstacle generation. `Safety` states the session invariant in two halves, the player's (`PlayerSafe`) and the opponent's (`OpponentOnGrid`), and proves that every transition keeps each. The player's half holds for every session started on a grid of at least 11x11 cells, including one started from the first render's 0x0 viewport; the opponent's half holds when the session was started on the live viewport.
- **State.** Class `Engine.Game` keeps the same state in fields and updates them step by step, as the component's callbacks do. Each method is proved to perform the corresponding `Rules` transition on the snapshot of its fields.
  - The state hooks are grouped into three records of the fields: the player's, the opponent's and the session's.
  - `GenerateObstacles` is a method; its candidate loop (`PushCandidates`) skips a candidate anchored near the spawn cell, as the source's `continue` does.

**Randomness.** Each random number is an explicit input: a real in [0,1).

- Generation reads a stream of draws through a cursor.
- The opponent takes one draw for "keep heading" and one draw for the index into the legal list.

**Time.** Clock readings (`performance.now()`, the animation frame time) are parameters.

**Snapshot reads.** The callbacks read the state captured when they were built, and the model keeps this:

- The player's step tests the opponent's trail as it was before the tick.
- The opponent's step tests the player's cell and trail as they were before the tick, so `Engine.Game.Loop` copies them before calling `MovePlayer`.
- Functional updates (`setScore(s => s + 1)`, `setLives(l => l - 1)`, `setSpeed(s => ...)`) accumulate.
- `gameOver` compares the high score with the captured score.
- The keydown listener is rebuilt only when `direction` or `gameState` changes, so until then Enter runs the `startGame` of the first render, whose viewport is 0x0. `Engine.Game` keeps that viewport in `keyView`.

**Opponent and scoring.**

- There is no weapon pickup, no opponent difficulty tier, no distance-seeking opponent and no respawn. A dead opponent stays dead, and its trail stays lethal.
- The opponent keeps its heading with probability 0.9 when that heading is legal, and otherwise picks uniformly among the legal headings.
- The opponent's death is worth a flat 500 points.

## Model

| member | source | states |
|---|---|---|
| Types.IndexOf | src/App.tsx:499-500 | the position of a heading in the order UP, RIGHT, DOWN, LEFT is below four and indexes that heading |
| Types.DirectionsAreFour | src/types.ts:6 | there are four headings, the rotation order lists each exactly once |
| Types.GameStatesAreFour | src/types.ts:31 | a game state is START, PLAYING, GAMEOVER or PAUSED, and these are four distinct values |
| Types.ObstacleTypesAreEight | src/types.ts:13 | every obstacle tag is one of eight distinct tags (no weapon tag) |
| Types.OptionalFieldsIndependent | src/types.ts:15-29 | any teleport target combines with any moving-wall axis, range and speed in some obstacle |
| Types.ConstantsAgree | src/types.ts:43-50 | MIN_SPEED 50 is below INITIAL_SPEED 120, three lives, 2000 ms invulnerability |
| Grid.CellsAcross | src/App.tsx:84-85 | `floor((w / 24) * 8)` over the reals equals `w / 3` rounded down |
| Grid.Step | src/App.tsx:349-357 | one step moves exactly one cell, up decreasing y, down increasing y, left decreasing x, right increasing x |
| Grid.Opposite | src/App.tsx:307-310 | the reverse heading differs from the heading |
| Grid.OppositeUndoesStep | src/App.tsx:307-310 | stepping along the reverse heading returns to the start cell; reversing twice is the identity |
| Controls.TurnLeft | src/App.tsx:503-507 | a left press requests `order[(i + 3) % 4]`, never the committed heading and never its reverse |
| Controls.TurnRight | src/App.tsx:508-512 | a right press requests `order[(i + 1) % 4]`, never the committed heading and never its reverse |
| Controls.TurnsAreInverse | src/App.tsx:498-512 | left undoes right and right undoes left, four right turns are the identity, two turns either way reverse |
| Controls.ThrottleUp | src/App.tsx:516 | the raised throttle is exactly the old value plus the step when that is at most 100, and exactly 100 otherwise; it never exceeds 100, and from a throttle of at most 100 it does not fall |
| Controls.ThrottleDown | src/App.tsx:521 | the lowered throttle is exactly the old value minus the step when that is at least 0, and exactly 0 otherwise; it never goes below 0, and from a throttle of at least 0 it does not rise |
| Controls.ThrottleToSpeed | src/App.tsx:490-494 | for throttle in [0,100] the interval is in [50,120]; 120 at throttle 0 and 50 at 100 |
| Controls.ThrottleToSpeedAntitone | src/App.tsx:492 | more throttle never gives a longer interval |
| Controls.ThrottleToSpeedLinear | src/App.tsx:492 | each point of throttle takes exactly 0.7 ms off the interval: the map is linear, not only antitone |
| Controls.Boosted | src/App.tsx:391-392 | a BOOST pad makes the interval exactly 0.7 times the old one when that is at least 50, and exactly 50 otherwise; so it never lengthens an interval of at least 50, never gives less than 50, and keeps an interval of at most 180 within the SLOW cap |
| Controls.Slowed | src/App.tsx:395-396 | a SLOW pad makes the interval exactly 1.3 times the old one when that is at most 180, and exactly 180 otherwise; so it never exceeds 180, never shortens an interval in [0,180], and keeps an interval of at least 50 at least 50 |
| Controls.SpeedStaysInRange | src/App.tsx:391-398 | BOOST, SLOW and any throttle setting in [0,100] keep the interval in [50,180] |
| Generation.Coord | src/App.tsx:90-91 | the anchor is the draw scaled by n-4, rounded down, plus two: the scaled draw lies in [c-2, c-1) |
| Generation.CoordInterior | src/App.tsx:90-91 | an anchor drawn on a side of n >= 5 cells lies in [2, n-3] |
| Generation.Ladder | src/App.tsx:108-140 | the type is BOOST, SLOW, TELEPORT, MOVING_WALL, PILLAR exactly on the bands 0.08/0.16/0.20/0.30/0.35; DECORATION exactly for a decorated theme above its threshold (0.98 for `dune` and `alien`, 0.95 for the others); WALL exactly for the rest of [0.35,1); never GIANT_TREE |
| Generation.DrawnObstacle | src/App.tsx:97-155 | the obstacle pushed for candidate i has id `obs-i`, the ladder type of its third draw, a teleport target exactly when it is a TELEPORT, an axis exactly when it is a MOVING_WALL, and its start equal to its anchor |
| Generation.DrawnObstacleShape | src/App.tsx:90-155 | a pushed candidate is anchored in [2,cols-3]x[2,rows-3] outside the spawn square; it has a target exactly when it is a TELEPORT, and the target is interior; it has oscillation fields exactly when it is a MOVING_WALL, with range 2..4 and speed in [0.002,0.005); a PILLAR is 3 to 5 high |
| Generation.Landmark | src/App.tsx:158-184 | the landmark sits on the centre cell `(floor(cols/2), floor(rows/2))`, never teleports and never moves, is a WALL for `2001` and a GIANT_TREE for `avatar`, and has a non-numbered id |
| Generation.Cursor | src/App.tsx:89-97 | candidate i's draws start at a position between 2i and 6i: a rejected candidate consumes its two anchor draws, a kept one also its type draw and the draws its type reads |
| Generation.KeptCandidates | src/App.tsx:89-94 | the kept candidates below n, in increasing order: candidate i is among them exactly when the anchor drawn at its cursor lies outside the spawn square |
| Generation.RejectedKeepsPrefix | src/App.tsx:94 | a candidate anchored in the spawn square pushes nothing |
| Generation.KeptExtendsPrefix | src/App.tsx:97-156 | a kept candidate pushes exactly its own obstacle after the earlier ones |
| Generation.DrawCandidate | src/App.tsx:97-155 | the if-chain builds exactly the obstacle the draws determine (type from the ladder, target, oscillation, size) and moves the cursor by 3 plus the draws its type reads (2 for TELEPORT, 3 for MOVING_WALL, 1 for PILLAR) |
| Generation.PushCandidates | src/App.tsx:89-156 | after `count` candidates the pushed list holds, in order, exactly one obstacle per kept candidate, each determined by the draws at that candidate's cursor |
| Generation.GeneratedField | src/App.tsx:83-187 | a generated field has at most budget plus one obstacles, ends with the theme's landmark when it has one, and no two of its obstacles share an id |
| Generation.EmptyBudgetHasNoTargets | src/App.tsx:87-89 | with fewer than 100 cells the loop runs zero times, so the field has no teleport target and its targets lie inside any grid |
| Generation.GenerateObstacles | src/App.tsx:83-187 | the field is exactly the kept candidates among the first `floor(cols*rows/100)`, in order, each the obstacle its own draws determine with id `obs-i`, followed by the `2001` monolith or the `avatar` tree when the theme has one; so at most budget plus one obstacles; on a grid of at least 5x5 cells every teleport target is interior |
| Generation.GeneratedTargetsInside | src/App.tsx:112-117 | every teleport target of a generated field lies in the interior |
| Rules.FirstNear | src/App.tsx:381-385 | the index found is the first obstacle within 0.7 on both axes; none is found exactly when no obstacle is that close |
| Rules.Resolve | src/App.tsx:362-406 | an accepted move's candidate is on the grid and on neither trail, and it ends on the candidate unless it teleports; a move is blocked off-grid exactly when the candidate is off the grid; an obstacle blocks only when it is a WALL, MOVING_WALL or PILLAR |
| Rules.ResolveCases | src/App.tsx:362-406 | a move is blocked exactly when off the grid, on either trail (a dead opponent's too), or the first obstacle in contact is a WALL, MOVING_WALL or PILLAR; an accepted move ends on the candidate, or on the stored target of a TELEPORT; its effect is Boost for a BOOST pad, Slow for a SLOW pad, Teleport for a teleporter with a target, and Plain for anything else |
| Rules.EndSession | src/App.tsx:238-244 | the state becomes GAMEOVER and the high score the larger of the old high score and the score; nothing else changes |
| Rules.HitEffect | src/App.tsx:259-274 | a hit costs at most one life and never the last; it keeps the score and the player's cell, never lowers the high score, either keeps the trail or cuts it to the current cell, and changes only lives, the window, the trail, the state (to GAMEOVER) and the high score |
| Rules.HitEffectCases | src/App.tsx:259-274 | inside the window a hit changes nothing; otherwise one life less, 2000 ms of invulnerability and a trail cut to the current cell; on the last life GAMEOVER with lives unchanged and high score the maximum of high score and score |
| Rules.RepeatedHitsCostOneLife | src/App.tsx:261 | two hits within one invulnerability window cost at most one life and never take lives below one |
| Rules.PlayerStep | src/App.tsx:345-413 | the player's step commits the requested heading, adds 0 or 1 to the score, never lowers the high score, never takes the last life, and leaves the obstacles, the throttle and every opponent field unchanged |
| Rules.PlayerStepOutcome | src/App.tsx:345-413 | the requested heading is committed; a blocked move leaves cell, score and interval unchanged and has exactly the effect of a hit (only the heading changes while invulnerable); an accepted move appends exactly the cell it ends on, adds exactly one point and applies the pad's effect to the interval |
| Rules.LegalMoves | src/App.tsx:281-313 | a heading is in the list exactly when its cell is on the grid, outside every non-pad rectangle, off both trails and off the player's cell, and not the reverse; no heading twice, at most three |
| Rules.PickIndex | src/App.tsx:327 | `floor(r * n)` for a draw in [0,1) is the index j below n with j <= r*n < j+1 |
| Rules.ChooseHeading | src/App.tsx:323-328 | the chosen heading is legal; it is the current heading when that is legal and the draw is above 0.1, and otherwise the legal heading at index `floor(pickDraw * n)` |
| Rules.EveryLegalHeadingCanBeChosen | src/App.tsx:323-328 | when the heading is not kept, the j-th of n legal headings is chosen for every pick draw in [j/n, (j+1)/n), an interval inside [0,1) |
| Rules.OpponentStep | src/App.tsx:276-343 | the opponent's step adds 0 or 500 to the score, never revives a dead opponent, extends its trail by at most one cell keeping the old trail as a prefix, and changes nothing but the opponent's fields and the score |
| Rules.OpponentStepOutcome | src/App.tsx:276-343 | a dead opponent does not move; with no legal heading it dies in place and the score gains exactly 500; otherwise it moves one cell along a legal, non-reversing heading to a free on-grid cell that is appended to its trail, and nothing else changes |
| Rules.Tick | src/App.tsx:474-478 | one tick commits the requested heading, adds between 0 and 501 to the score, never lowers the high score, never takes the last life, never revives the opponent and leaves the obstacles unchanged |
| Rules.Oscillate | src/App.tsx:441-447 | only the anchor of an obstacle moves, and only along one axis; an obstacle that does not oscillate is unchanged |
| Rules.MoveWalls | src/App.tsx:440-450 | the list keeps its length and order; only MOVING_WALL obstacles change, only in their anchor and along one axis, and every other field (teleport targets included) is kept |
| Rules.OscillationStaysInRange | src/App.tsx:441-447 | for a sine in [-1,1] an oscillating wall stays within its range of its start along its axis and keeps the other coordinate |
| Rules.Frame | src/App.tsx:418-479 | a frame keeps the number of obstacles, never lowers the score or the high score, adds at most 501, only ever changes the state to GAMEOVER, never takes the last life and never revives the opponent |
| Rules.TicksOnlyWhilePlaying | src/App.tsx:452-478 | outside PLAYING or before the interval has elapsed a frame only moves the walls; a tick sets the last-tick time and commits the heading |
| Rules.Reset | src/App.tsx:206-236 | a fresh PLAYING session: score 0, the old high score, three lives, interval 120 and throttle 0, both vehicles alone on one-cell trails, the player at (10,10) heading right and the opponent at (cols-10, rows-10) heading left and alive, the given field and tick clock |
| Rules.PauseToggled | src/App.tsx:246-257 | the result is PAUSED exactly when the state was PLAYING and PLAYING exactly when it was PAUSED; only the state and the tick clock change |
| Rules.PauseTogglesPlayingAndPaused | src/App.tsx:246-257 | pause leaves GAMEOVER and START alone; toggling twice from PLAYING restores the state with the tick clock restarted |
| Rules.Steered | src/App.tsx:498-512 | a steering press changes only the requested heading, and never to the committed heading or its reverse |
| Rules.Throttled | src/App.tsx:490-494 | a throttle input sets the throttle and may change only the interval besides; an unchanged value keeps the interval, and a changed one sets it to exactly the throttle map's value, in [50,120] for a throttle in [0,100] |
| Rules.SteerNeverReverses | src/App.tsx:498-512 | pressing the same way twice between ticks requests the same heading as once, and pressing one way then the other never requests the reverse: no U-turn |
| Safety.SafeVehiclesOnGrid | src/App.tsx:363 | in a player-safe state the player is on the grid and at least one life is left; the opponent is on the grid too when its trail is |
| Safety.ResetIsSafe | src/App.tsx:206-236 | `startGame` on a grid of at least 11x11 cells, with interior targets, gives a player-safe state with score 0, three lives, state PLAYING and the old high score, whatever viewport it spawned the opponent on; a safe state when that viewport is the live one |
| Safety.GeneratedStartIsSafe | src/App.tsx:206-236 | on a live grid of at least 11x11 cells and with a non-negative high score, a session started with a generated field on the live viewport is safe, and one started on a viewport too small for any candidate, the 0x0 one included, is player-safe on the live grid |
| Safety.HitEffectSafe | src/App.tsx:259-274 | a hit keeps the player's invariant and the opponent's trail and cell, keeps the score and never lowers the high score |
| Safety.AcceptedOnGrid | src/App.tsx:363-403 | the cell an accepted move ends on is on the grid: the candidate passed the bounds check, a teleport target lies in the interior |
| Safety.PlayerStepSafe | src/App.tsx:345-413 | the player's step keeps the player's invariant and the full invariant (an accepted cell, teleport targets included, is on the grid); the score grows by at most one and the high score never falls, in any state |
| Safety.OpponentStepKeepsOpponentOnGrid | src/App.tsx:276-343 | an opponent whose trail is on the grid keeps it there: a move appends one legal, on-grid cell |
| Safety.OpponentStepSafe | src/App.tsx:276-343 | the opponent's step keeps the player's invariant and the full invariant; in any state the score grows by 0 or 500 and the high score is unchanged |
| Safety.MoveWallsKeepsTargets | src/App.tsx:440-450 | oscillation keeps every teleport target in the interior |
| Safety.FramePreservesSafe | src/App.tsx:418-479 | a frame keeps the player's invariant (lives 1..3, trail on the grid ending at the player, interval and throttle in range, interior targets) and the full invariant (also the opponent's trail on the grid ending at it); in any state score and high score never decrease and a tick adds at most 501 |
| Safety.InputsPreserveSafe | src/App.tsx:498-521 | pause, steering and any throttle in [0,100] keep the player's invariant, the full invariant and the score |
| Safety.SameTickBonusMissesHighScore | src/App.tsx:238-241 | on a concrete state in which the last life ends and the opponent is boxed in during the same tick, the session ends with score 510 and high score 10 |
| Safety.HeadOnSameCell | src/App.tsx:302-305 | on a concrete state both vehicles enter the same free cell in the same tick, since each tests the other's trail as it was before the tick |
| Safety.ZeroViewportStartLosesOpponent | src/App.tsx:220-229 | a session started on a 0x0 viewport spawns the opponent at (-10,-10); on any grid the first tick then kills it and adds exactly 500 to the score after the player's step |
| Engine.Game.constructor | src/App.tsx:22-47 | the mounted component's initial state; the keydown listener holds the first render's 0x0 viewport |
| Engine.Game.Rerender | src/App.tsx:531 | the listener is rebuilt, with the live viewport, exactly when the heading or the game state changed |
| Engine.Game.StartGame | src/App.tsx:206-236 | the fields become the reset session on the viewport the caller's closure holds, with exactly the generated field of that viewport; at most budget plus one obstacles; interior targets; on a live grid of at least 11x11 cells a player-safe state when that viewport is the live one or too small for any candidate (0x0 included), and a safe state when it is the live one; the listener is rebuilt unless the heading and the state were already RIGHT and PLAYING |
| Engine.Game.GameOver | src/App.tsx:238-244 | the state becomes GAMEOVER and the high score the maximum of high score and score |
| Engine.Game.TogglePause | src/App.tsx:246-257 | the fields change as the pause toggle says; the listener is rebuilt exactly when PLAYING or PAUSED swapped |
| Engine.Game.HandleHit | src/App.tsx:259-274 | the fields change as the hit rule says |
| Engine.Game.MovePlayer | src/App.tsx:345-413 | the early-return checks and the pad effects give the player's step |
| Engine.Game.Advance | src/App.tsx:408-412 | an accepted move appends the cell, adds one point and moves the player, and changes nothing else |
| Engine.Game.MoveOpponent | src/App.tsx:276-343 | the filter, the death branch and the heading choice give the opponent's step |
| Engine.Game.Loop | src/App.tsx:418-479 | one frame: walls move, and while PLAYING with the interval elapsed the player then the opponent step on the state captured before the tick; score and high score never fall; the player's invariant and the full invariant are kept; the listener is rebuilt when the heading or the state changed |
| Engine.Game.Turn | src/App.tsx:498-512 | a steering press gives the steering rule |
| Engine.Game.ChangeThrottle | src/App.tsx:490-494 | a changed throttle sets the interval from the throttle map; an unchanged one changes nothing |
| Engine.Game.NudgeThrottle | src/App.tsx:516-521 | throttle keys and buttons clamp the throttle to [0,100] and then apply the throttle effect |
| Engine.Game.SlideThrottle | src/App.tsx:880-884 | the slider sets the throttle and applies the throttle effect |
| Engine.Game.HandleKeyDown | src/App.tsx:497-531 | each key's transition; Enter restarts unless PLAYING, on the viewport the listener holds (0x0 until the heading or the state first changes), with exactly the field generated for it, and rebuilds the listener; other keys change nothing |

## Left out

- Sound (`soundService` calls) does nothing in the model, because it only performs audio output.
- Particles, smooth camera position and angle, `project`, `getAngleForDirection` and the grid pulse are left out: they are cosmetic floating-point state that the simulation never reads.
- The value of `Math.sin(time * moveSpeed)` is an input, one real per obstacle, because trigonometry is not modelled. The oscillation around it is modelled.
- Floating-point rounding is not modelled: the tick interval, the obstacle anchors and the draws are exact reals.
- Resize and mobile detection are left out. The live viewport is the resize handler's first measurement (at least 1x1) and stays fixed for the life of an `Engine.Game`. The keydown listener's own viewport is tracked: 0x0 from the first render until the listener is rebuilt.
- Engine.Game.HandleKeyDown: the theme the listener's closure holds is a parameter. The model does not track that the listener keeps the theme of the render that built it.
- `requestAnimationFrame` scheduling and its cancellation in `gameOver` are left out. A frame is one call of `Loop`, and ticks outside PLAYING are excluded by the guard.
- React's render cycle, where updater functions run during the next render, and StrictMode double invocation are not modelled. Updaters apply in call order within a tick.
- UI-only code is left out: the JSX, HUD, minimap, theme menu, `shuffleThemeColors` and the theme palettes. Themes appear only as their id string, which is an input to generation.
- Obstacle ids are a datatype (`obs-i`, `monolith-main`, `giant-tree`) instead of strings.
- `SPEED_INCREMENT` and `COLORS` in `src/types.ts` are not modelled. The engine never uses the former, and the latter is rendering only.
- The high score starts at 0 and lives only in memory, as in the component. Nothing persists it.
- A tick's `now` (the clock a hit reads) and `time` (the frame's time) are separate inputs. The model does not relate them.
- Engine.Game.Turn, NudgeThrottle, SlideThrottle: the touch buttons exist only while PLAYING on mobile, and the throttle slider only while PLAYING. The model does not restrict them to that state, as the keyboard handler does not restrict the keys.

=== FILE: controls.dfy ===
/** The pure arithmetic of the controls (src/App.tsx): 90-degree steering over
    ORDER, throttle steps clamped to [0,100], the throttle-to-interval map, and
    the interval changes of BOOST and SLOW pads. */
module Controls {
  import opened Types
  import opened Grid

  /** `order[(i - 1 + 4) % 4]`: the heading a left turn requests. */
  function TurnLeft(d: Direction): (r: Direction)
    ensures r != d && r != Opposite(d)
    ensures IndexOf(r) == (IndexOf(d) + 3) % 4
  {
    ORDER[(IndexOf(d) - 1 + 4) % 4]
  }

  /** `order[(i + 1) % 4]`: the heading a right turn requests. */
  function TurnRight(d: Direction): (r: Direction)
    ensures r != d && r != Opposite(d)
    ensures IndexOf(r) == (IndexOf(d) + 1) % 4
  {
    ORDER[(IndexOf(d) + 1) % 4]
  }

  /** A left turn undoes a right turn and vice versa; four turns the same
      way come back to the start. */
  lemma TurnsAreInverse(d: Direction)
    ensures TurnLeft(TurnRight(d)) == d && TurnRight(TurnLeft(d)) == d
    ensures TurnRight(TurnRight(TurnRight(TurnRight(d)))) == d
    ensures TurnRight(TurnRight(d)) == Opposite(d) && TurnLeft(TurnLeft(d)) == Opposite(d)
  {
    assert TurnRight(UP) == RIGHT && TurnRight(RIGHT) == DOWN && TurnRight(DOWN) == LEFT && TurnRight(LEFT) == UP;
    assert TurnLeft(UP) == LEFT && TurnLeft(RIGHT) == UP && TurnLeft(DOWN) == RIGHT && TurnLeft(LEFT) == DOWN;
  }

  /** `Math.min(100, t + step)`. */
  function ThrottleUp(t: int, step: nat): (r: int)
    ensures r <= 100
    ensures t <= 100 ==> t <= r
    ensures r == t + step || r == 100
    ensures t + step <= 100 ==> r == t + step
    ensures t + step >= 100 ==> r == 100
  {
    if t + step < 100 then t + step else 100
  }

  /** `Math.max(0, t - step)`. */
  function ThrottleDown(t: int, step: nat): (r: int)
    ensures r >= 0
    ensures t >= 0 ==> r <= t
    ensures r == t - step || r == 0
    ensures t - step >= 0 ==> r == t - step
    ensures t - step <= 0 ==> r == 0
  {
    if t - step > 0 then t - step else 0
  }

  /** `INITIAL_SPEED - (throttle / 100) * (INITIAL_SPEED - MIN_SPEED)`: the tick
      interval in milliseconds for a throttle setting. */
  function ThrottleToSpeed(throttle: int): (s: real)
    ensures 0 <= throttle <= 100 ==> MIN_SPEED <= s <= INITIAL_SPEED
    ensures throttle == 0 ==> s == INITIAL_SPEED
    ensures throttle == 100 ==> s == MIN_SPEED
  {
    INITIAL_SPEED - (throttle as real / 100.0) * (INITIAL_SPEED - MIN_SPEED)
  }

  /** More throttle never gives a longer interval. */
  lemma ThrottleToSpeedAntitone(a: int, b: int)
    requires a <= b
    ensures ThrottleToSpeed(b) <= ThrottleToSpeed(a)
  {
  }

  /** The map is linear: each point of throttle takes 0.7 ms off the
      interval. */
  lemma ThrottleToSpeedLinear(t: int)
    ensures ThrottleToSpeed(t + 1) == ThrottleToSpeed(t) - 0.7
  {
  }

  /** The longest interval a SLOW pad can produce: 1.5 times INITIAL_SPEED. */
  const MAX_SPEED: real := INITIAL_SPEED * 1.5

  /** A BOOST pad: `Math.max(MIN_SPEED, s * 0.7)`. */
  function Boosted(s: real): (r: real)
    ensures r >= MIN_SPEED
    ensures s >= MIN_SPEED ==> r <= s
    ensures s <= MAX_SPEED ==> r <= MAX_SPEED
    ensures s * 0.7 >= MIN_SPEED ==> r == s * 0.7
    ensures s * 0.7 <= MIN_SPEED ==> r == MIN_SPEED
  {
    if MIN_SPEED > s * 0.7 then MIN_SPEED else s * 0.7
  }

  /** A SLOW pad: `Math.min(INITIAL_SPEED * 1.5, s * 1.3)`. */
  function Slowed(s: real): (r: real)
    ensures r <= MAX_SPEED
    ensures 0.0 <= s <= MAX_SPEED ==> s <= r
    ensures s >= MIN_SPEED ==> r >= MIN_SPEED
    ensures s * 1.3 <= MAX_SPEED ==> r == s * 1.3
    ensures s * 1.3 >= MAX_SPEED ==> r == MAX_SPEED
  {
    if MAX_SPEED < s * 1.3 then MAX_SPEED else s * 1.3
  }

  /** The tick interval never leaves [MIN_SPEED, MAX_SPEED], whatever mix of
      pads and throttle changes the player goes through. */
  predicate SpeedInRange(s: real)
  {
    MIN_SPEED <= s <= MAX_SPEED
  }

  lemma SpeedStaysInRange(s: real, throttle: int)
    requires SpeedInRange(s)
    requires 0 <= throttle <= 100
    ensures SpeedInRange(Boosted(s)) && SpeedInRange(Slowed(s))
    ensures SpeedInRange(ThrottleToSpeed(throttle))
  {
  }
}

=== FILE: engine.dfy ===
/** The game component (src/App.tsx) as an object whose methods update its
    state fields step by step. Each method is proved to perform the
    transition of the same name in module Rules on the snapshot of its
    fields. Sound, particles, camera and rendering are not modelled. */
module Engine {
  import opened Types
  import opened Grid
  import opened Controls
  import opened Generation
  import opened Rules
  import opened Safety

  /** A key, after the handler's mapping (ArrowLeft/a/A, ArrowRight/d/D,
      ArrowUp/w/W, ArrowDown/s/S, Enter, anything else). */
  datatype Key = TurnLeftKey | TurnRightKey | ThrottleUpKey | ThrottleDownKey | EnterKey | OtherKey

  /** The player's state hooks: `playerPos`, `playerTrail`, `direction` (the
      committed heading) and `nextDirection` (the requested one). */
  datatype PlayerState = PlayerState(pos: Point, trail: seq<Point>, direction: Direction, nextDirection: Direction)

  /** The opponent's state hooks: `opponentPos`, `opponentTrail`,
      `opponentDirection`, `opponentAlive`. */
  datatype OpponentState = OpponentState(pos: Point, trail: seq<Point>, direction: Direction, alive: bool)

  /** The remaining state hooks, and the loop's reference time of the last
      tick. */
  datatype SessionState = SessionState(
    gameState: GameState,
    score: int,
    highScore: int,
    obstacles: seq<Obstacle>,
    speed: real,
    throttle: int,
    lives: int,
    invulnerableUntil: real,
    lastMoveTime: real)

  /** A viewport in pixels, as a closure captured it. */
  datatype Viewport = Viewport(width: nat, height: nat)

  class Game {
    /** The viewport the resize handler measured, fixed for the life of the
        object. */
    const width: nat
    const height: nat

    var session: SessionState
    var player: PlayerState
    var opponent: OpponentState

    /** The viewport the keydown listener's closure holds. The listener is
        registered after the first render, while the viewport is still 0x0,
        and registered again only after a render in which `direction` or
        `gameState` changed. */
    var keyView: Viewport

    function Cols(): int
    {
      CellsAcross(width)
    }

    function Rows(): int
    {
      CellsAcross(height)
    }

    ghost function Snapshot(): World
      reads this
    {
      World(session.gameState, session.score, session.highScore, player.pos, player.trail,
            player.direction, player.nextDirection, session.obstacles, session.speed, session.throttle,
            session.lives, session.invulnerableUntil, opponent.pos, opponent.trail, opponent.direction,
            opponent.alive, session.lastMoveTime)
    }

    /** The listener after a render that follows a change from heading
        `direction0` and state `state0`. */
    function Relistened(view: Viewport, direction0: Direction, state0: GameState,
                        direction1: Direction, state1: GameState): Viewport
    {
      if direction1 != direction0 || state1 != state0 then Viewport(width, height) else view
    }

    /** Mounting, then the resize handler's first measurement (at least 1x1). */
    constructor (width: nat, height: nat)
      requires width >= 1 && height >= 1
      ensures this.width == width && this.height == height
      ensures Snapshot() == MOUNTED
      ensures keyView == Viewport(0, 0)
    {
      this.width, this.height := width, height;
      keyView := Viewport(0, 0);
      session := SessionState(START, 0, 0, [], INITIAL_SPEED, 0, INITIAL_LIVES, 0.0, 0.0);
      player := PlayerState(Point(10, 10), [], RIGHT, RIGHT);
      opponent := OpponentState(Point(20, 20), [], LEFT, true);
    }

    /** React re-registers the keydown listener after a render in which
        `direction` or `gameState` changed; the new closure reads the live
        viewport. */
    method Rerender(direction0: Direction, state0: GameState)
      modifies this`keyView
      ensures keyView == Relistened(old(keyView), direction0, state0, player.direction, session.gameState)
    {
      if player.direction != direction0 || session.gameState != state0 {
        keyView := Viewport(width, height);
      }
    }

    /** `startGame`, as built in a render whose viewport was `viewWidth` by
        `viewHeight` (the live one for the start buttons, the listener's for
        Enter): reset the session, spawn the opponent ten cells in from that
        viewport's far corner and generate a field for `theme` on it. */
    method StartGame(viewWidth: nat, viewHeight: nat, now: real, theme: string, draws: seq<real>)
      requires UnitDraws(draws)
      requires |draws| >= 6 * Budget(CellsAcross(viewWidth), CellsAcross(viewHeight))
      modifies this
      ensures Snapshot() == Reset(old(Snapshot()), CellsAcross(viewWidth), CellsAcross(viewHeight), session.obstacles, now)
      ensures GeneratedField(session.obstacles, draws, CellsAcross(viewWidth), CellsAcross(viewHeight), theme)
      ensures |session.obstacles| <= Budget(CellsAcross(viewWidth), CellsAcross(viewHeight)) + 1
      ensures CellsAcross(viewWidth) >= 5 && CellsAcross(viewHeight) >= 5 ==>
        TargetsInside(session.obstacles, CellsAcross(viewWidth), CellsAcross(viewHeight))
      ensures (viewWidth == width && viewHeight == height) || Budget(CellsAcross(viewWidth), CellsAcross(viewHeight)) == 0 ==>
        Cols() >= 11 && Rows() >= 11 && old(session.highScore) >= 0 ==> PlayerSafe(Snapshot(), Cols(), Rows())
      ensures viewWidth == width && viewHeight == height && Cols() >= 11 && Rows() >= 11 && old(session.highScore) >= 0 ==>
        Safe(Snapshot(), Cols(), Rows())
      ensures keyView == (if old(player.direction) != RIGHT || old(session.gameState) != PLAYING
                          then Viewport(width, height) else old(keyView))
    {
      var direction0, state0 := player.direction, session.gameState;
      var generated := GenerateObstacles(viewWidth, viewHeight, theme, draws);
      var startX, startY := CellsAcross(viewWidth) - 10, CellsAcross(viewHeight) - 10;
      player := PlayerState(Point(10, 10), [Point(10, 10)], RIGHT, RIGHT);
      opponent := OpponentState(Point(startX, startY), [Point(startX, startY)], LEFT, true);
      session := SessionState(PLAYING, 0, session.highScore, generated, INITIAL_SPEED, 0, INITIAL_LIVES, 0.0, now);
      GeneratedStartIsSafe(old(Snapshot()), width, height, viewWidth, viewHeight, generated, draws, theme, now);
      Rerender(direction0, state0);
    }

    /** `gameOver`. */
    method GameOver()
      modifies this`session, this`player, this`opponent
      ensures Snapshot() == EndSession(old(Snapshot()))
    {
      session := session.(gameState := GAMEOVER);
      if session.score > session.highScore {
        session := session.(highScore := session.score);
      }
    }

    /** `togglePause`, at clock reading `now`. */
    method TogglePause(now: real)
      modifies this
      ensures Snapshot() == PauseToggled(old(Snapshot()), now)
      ensures keyView == (if old(session.gameState) == PLAYING || old(session.gameState) == PAUSED
                          then Viewport(width, height) else old(keyView))
    {
      var direction0, state0 := player.direction, session.gameState;
      if session.gameState == PLAYING {
        session := session.(gameState := PAUSED);
      } else if session.gameState == PAUSED {
        session := session.(gameState := PLAYING, lastMoveTime := now);
      }
      Rerender(direction0, state0);
    }

    /** `handleHit`, at clock reading `now`. */
    method HandleHit(now: real)
      modifies this`session, this`player, this`opponent
      ensures Snapshot() == HitEffect(old(Snapshot()), now)
    {
      if now < session.invulnerableUntil {
        return;
      }
      if session.lives > 1 {
        session := session.(lives := session.lives - 1, invulnerableUntil := now + INVULNERABILITY_TIME);
        player := player.(trail := [player.pos]);
      } else {
        GameOver();
      }
    }

    /** `movePlayer`: commit the heading, then the collision checks in
        priority order, then the pad effect and the move. */
    method MovePlayer(now: real)
      modifies this`session, this`player, this`opponent
      ensures Snapshot() == PlayerStep(old(Snapshot()), Cols(), Rows(), now)
    {
      player := player.(direction := player.nextDirection);
      var cell := Step(player.pos, player.direction);
      if !InBounds(cell, Cols(), Rows()) {
        HandleHit(now);
        return;
      }
      if cell in player.trail {
        HandleHit(now);
        return;
      }
      if cell in opponent.trail {
        HandleHit(now);
        return;
      }
      var hit := FirstNear(session.obstacles, cell);
      if hit.Some? {
        var o := session.obstacles[hit.value];
        if o.kind == WALL || o.kind == MOVING_WALL || o.kind == PILLAR {
          HandleHit(now);
          return;
        } else if o.kind == BOOST {
          session := session.(speed := Boosted(session.speed));
        } else if o.kind == SLOW {
          session := session.(speed := Slowed(session.speed));
        } else if o.kind == TELEPORT && o.target.Some? {
          cell := o.target.value;
        }
      }
      Advance(cell);
    }

    /** The end of `movePlayer` once the cell is accepted: extend the trail,
        score one point, move. */
    method Advance(cell: Point)
      modifies this`session, this`player, this`opponent
      ensures Snapshot() == old(Snapshot()).(playerPos := cell, playerTrail := old(player.trail) + [cell],
                                             score := old(session.score) + 1)
    {
      player := player.(trail := player.trail + [cell]);
      session := session.(score := session.score + 1);
      player := player.(pos := cell);
    }

    /** `moveOpponent`, given the player's cell and trail as the callback
        captured them before this tick. */
    method MoveOpponent(playerCell: Point, playerPath: seq<Point>, persistDraw: real, pickDraw: real)
      requires 0.0 <= pickDraw < 1.0
      modifies this`session, this`opponent
      ensures Snapshot() == OpponentStep(old(Snapshot()), playerCell, playerPath, Cols(), Rows(), persistDraw, pickDraw)
    {
      if !opponent.alive {
        return;
      }
      var valid := LegalMoves(opponent.pos, opponent.direction, Cols(), Rows(), session.obstacles,
                              playerCell, playerPath, opponent.trail);
      if |valid| == 0 {
        opponent := opponent.(alive := false);
        session := session.(score := session.score + 500);
        return;
      }
      var nextDir := ChooseHeading(valid, opponent.direction, persistDraw, pickDraw);
      var next := Step(opponent.pos, nextDir);
      opponent := opponent.(direction := nextDir);
      opponent := opponent.(trail := opponent.trail + [next]);
      opponent := opponent.(pos := next);
    }

    /** The animation-frame loop at time `time`. `sines[k]` stands for
        `Math.sin(time * moveSpeed)` of obstacle k; `now` is the clock a hit
        reads; the two draws are the opponent's random numbers. */
    method Loop(time: real, now: real, persistDraw: real, pickDraw: real, sines: seq<real>)
      requires 0.0 <= pickDraw < 1.0
      requires |sines| == |session.obstacles|
      modifies this
      ensures Snapshot() == Frame(old(Snapshot()), Cols(), Rows(), time, now, persistDraw, pickDraw, sines)
      ensures old(session.score) <= session.score && old(session.highScore) <= session.highScore
      ensures PlayerSafe(old(Snapshot()), Cols(), Rows()) ==> PlayerSafe(Snapshot(), Cols(), Rows())
      ensures Safe(old(Snapshot()), Cols(), Rows()) ==> Safe(Snapshot(), Cols(), Rows())
      ensures keyView == Relistened(old(keyView), old(player.direction), old(session.gameState),
                                    player.direction, session.gameState)
    {
      var direction0, state0 := player.direction, session.gameState;
      FramePreservesSafe(Snapshot(), Cols(), Rows(), time, now, persistDraw, pickDraw, sines);
      var moved := MoveWalls(session.obstacles, sines);
      if session.gameState == PLAYING {
        var delta := time - session.lastMoveTime;
        if delta >= session.speed {
          var playerCell, playerPath := player.pos, player.trail;
          MovePlayer(now);
          MoveOpponent(playerCell, playerPath, persistDraw, pickDraw);
          session := session.(lastMoveTime := time);
        }
      }
      session := session.(obstacles := moved);
      Rerender(direction0, state0);
    }

    /** A steering press (key or touch button): turn the committed heading
        90 degrees. */
    method Turn(clockwise: bool)
      modifies this`player
      ensures Snapshot() == Steered(old(Snapshot()), clockwise)
    {
      var i: int := IndexOf(player.direction);
      if clockwise {
        player := player.(nextDirection := ORDER[(i + 1) % 4]);
      } else {
        player := player.(nextDirection := ORDER[(i - 1 + 4) % 4]);
      }
    }

    /** The throttle effect: recompute the interval when the throttle value
        changed. */
    method ChangeThrottle(t: int)
      modifies this`session
      ensures Snapshot() == Throttled(old(Snapshot()), t)
    {
      if t != session.throttle {
        session := session.(throttle := t, speed := ThrottleToSpeed(t));
      }
    }

    /** Throttle keys (step 5) and touch buttons (step 10). */
    method NudgeThrottle(up: bool, step: nat)
      modifies this`session
      ensures Snapshot() == Throttled(old(Snapshot()),
                                      if up then ThrottleUp(old(session.throttle), step)
                                      else ThrottleDown(old(session.throttle), step))
    {
      if up {
        ChangeThrottle(ThrottleUp(session.throttle, step));
      } else {
        ChangeThrottle(ThrottleDown(session.throttle, step));
      }
    }

    /** The throttle slider, whose range is 0 to 100. */
    method SlideThrottle(v: int)
      requires 0 <= v <= 100
      modifies this`session
      ensures Snapshot() == Throttled(old(Snapshot()), v)
    {
      ChangeThrottle(v);
    }

    /** `handleKeyDown`, as the listener's closure holds it. Enter starts a
        session unless one is being played, on the viewport the closure
        captured; `theme` is the theme that closure holds. */
    method HandleKeyDown(key: Key, now: real, theme: string, draws: seq<real>)
      requires UnitDraws(draws)
      requires |draws| >= 6 * Budget(CellsAcross(keyView.width), CellsAcross(keyView.height))
      modifies this
      ensures key == TurnLeftKey ==> Snapshot() == Steered(old(Snapshot()), false)
      ensures key == TurnRightKey ==> Snapshot() == Steered(old(Snapshot()), true)
      ensures key == ThrottleUpKey ==> Snapshot() == Throttled(old(Snapshot()), ThrottleUp(old(session.throttle), 5))
      ensures key == ThrottleDownKey ==> Snapshot() == Throttled(old(Snapshot()), ThrottleDown(old(session.throttle), 5))
      ensures key == EnterKey && old(session.gameState) != PLAYING ==>
        && Snapshot() == Reset(old(Snapshot()), CellsAcross(old(keyView).width), CellsAcross(old(keyView).height),
                               session.obstacles, now)
        && GeneratedField(session.obstacles, draws, CellsAcross(old(keyView).width), CellsAcross(old(keyView).height),
                          theme)
        && keyView == Viewport(width, height)
      ensures key != EnterKey || old(session.gameState) == PLAYING ==> keyView == old(keyView)
      ensures (key == EnterKey && old(session.gameState) == PLAYING) || key == OtherKey ==> Snapshot() == old(Snapshot())
    {
      match key
      case TurnLeftKey => Turn(false);
      case TurnRightKey => Turn(true);
      case ThrottleUpKey => NudgeThrottle(true, 5);
      case ThrottleDownKey => NudgeThrottle(false, 5);
      case EnterKey =>
        if session.gameState != PLAYING {
          StartGame(keyView.width, keyView.height, now, theme, draws);
        }
      case OtherKey =>
    }
  }
}

=== FILE: generation.dfy ===
/** Obstacle field generation (`generateObstacles`, src/App.tsx:83-187).
    Every `Math.random()` call becomes the next element of a stream of draws
    in [0,1), read left to right through a cursor. */
module Generation {
  import opened Types
  import opened Grid

  /** `Math.floor(Math.random() * (n - 4)) + 2`: an anchor coordinate. The
      scaled draw lands in the unit interval that starts two below it. */
  function Coord(r: real, n: int): (c: int)
    ensures (c - 2) as real <= r * (n - 4) as real < (c - 1) as real
  {
    (r * (n - 4) as real).Floor + 2
  }

  /** On a side of at least five cells an anchor keeps two cells clear of
      either edge. */
  lemma CoordInterior(r: real, n: int)
    requires 0.0 <= r < 1.0
    requires n >= 5
    ensures 2 <= Coord(r, n) <= n - 3
  {
    var m := (n - 4) as real;
    assert 0.0 <= r * m;
    assert r * m < m by {
      assert (1.0 - r) * m > 0.0;
    }
  }

  /** The candidate count, `Math.floor((cols * rows) / 100)`. Dafny's `/`
      rounds down for a positive divisor, as `Math.floor` does. */
  function Budget(cols: int, rows: int): int
  {
    (cols * rows) / 100
  }

  /** The square around the player's spawn cell (10,10) that generation
      keeps clear. */
  predicate NearSpawn(ox: int, oy: int)
  {
    AbsInt(ox - 10) < 5 && AbsInt(oy - 10) < 5
  }

  /** Themes with a low-probability DECORATION band at the top of the ladder. */
  predicate DecoratedTheme(theme: string)
  {
    theme in {"star-wars", "dune", "alien", "minority-report", "blade-runner", "br2049"}
  }

  /** Where a decorated theme's DECORATION band starts: above 0.98 for the
      sandworm and the queen, above 0.95 for the others. */
  function DecorationThreshold(theme: string): real
  {
    if theme == "dune" || theme == "alien" then 0.98 else 0.95
  }

  /** The type ladder: one draw against the thresholds 0.08, 0.16, 0.20, 0.30
      and 0.35, then the theme's decoration band, else WALL. */
  function Ladder(r: real, theme: string): (t: ObstacleType)
    ensures t == BOOST <==> r < 0.08
    ensures t == SLOW <==> 0.08 <= r < 0.16
    ensures t == TELEPORT <==> 0.16 <= r < 0.20
    ensures t == MOVING_WALL <==> 0.20 <= r < 0.30
    ensures t == PILLAR <==> 0.30 <= r < 0.35
    ensures t == DECORATION <==> DecoratedTheme(theme) && r > DecorationThreshold(theme)
    ensures t == WALL <==> r >= 0.35 && !(DecoratedTheme(theme) && r > DecorationThreshold(theme))
    ensures t != GIANT_TREE
  {
    if r < 0.08 then BOOST
    else if r < 0.16 then SLOW
    else if r < 0.20 then TELEPORT
    else if r < 0.30 then MOVING_WALL
    else if r < 0.35 then PILLAR
    else if theme == "star-wars" && r > 0.95 then DECORATION
    else if theme == "dune" && r > 0.98 then DECORATION
    else if theme == "alien" && r > 0.98 then DECORATION
    else if (theme == "minority-report" || theme == "blade-runner" || theme == "br2049") && r > 0.95 then DECORATION
    else WALL
  }

  /** Width and height of a theme's decoration (worm, queen, flying car). */
  function DecorationSize(theme: string): (real, real)
  {
    if theme == "dune" then (3.0, 12.0)
    else if theme == "alien" then (2.0, 4.0)
    else if theme == "star-wars" then (1.0, 1.0)
    else (2.0, 1.0)
  }

  /** What the loop pushes for candidate `i` whose draws start at `d[p]`:
      anchor from d[p], d[p+1]; type from d[p+2]; then a teleport target from
      the next two draws, or a moving wall's axis, range and speed from the
      next three, or a pillar's height from the next one. */
  predicate DrawnObstacle(o: Obstacle, i: nat, d: seq<real>, p: nat, cols: int, rows: int, theme: string)
    requires p + 6 <= |d|
    ensures DrawnObstacle(o, i, d, p, cols, rows, theme) ==>
      && o.id == ObsNumbered(i)
      && o.kind == Ladder(d[p + 2], theme)
      && (o.target.Some? <==> o.kind == TELEPORT)
      && (o.moveAxis.Some? <==> o.kind == MOVING_WALL)
      && o.startX == Some(o.x) && o.startY == Some(o.y)
  {
    var ox := Coord(d[p], cols);
    var oy := Coord(d[p + 1], rows);
    var t := Ladder(d[p + 2], theme);
    && !NearSpawn(ox, oy)
    && o.id == ObsNumbered(i)
    && o.x == ox as real && o.y == oy as real
    && o.startX == Some(ox as real) && o.startY == Some(oy as real)
    && o.kind == t
    && o.target == (if t == TELEPORT then Some(Point(Coord(d[p + 3], cols), Coord(d[p + 4], rows))) else None)
    && (if t == MOVING_WALL then
          && o.moveAxis == Some(if d[p + 3] > 0.5 then X else Y)
          && o.moveRange == Some(((d[p + 4] * 3.0).Floor + 2) as real)
          && o.moveSpeed == Some(0.002 + d[p + 5] * 0.003)
        else o.moveAxis == None && o.moveRange == None && o.moveSpeed == None)
    && o.width == (if t == DECORATION then DecorationSize(theme).0 else 1.0)
    && o.height == (if t == PILLAR then 3.0 + d[p + 3] * 2.0
                    else if t == DECORATION then DecorationSize(theme).1
                    else 1.0)
  }

  /** Teleport targets lie in the interior ranges. */
  predicate TargetsInside(obs: seq<Obstacle>, cols: int, rows: int)
  {
    forall k :: 0 <= k < |obs| && obs[k].target.Some? ==>
      2 <= obs[k].target.value.x <= cols - 3 && 2 <= obs[k].target.value.y <= rows - 3
  }

  /** What a generated candidate is guaranteed to be: anchored in
      [2, cols-3] x [2, rows-3] outside the spawn square, a target exactly on
      teleporters and inside the same range, oscillation parameters exactly on
      moving walls (range 2..4, speed in [0.002, 0.005)), pillars 3 to 5 high,
      and never a GIANT_TREE. */
  lemma DrawnObstacleShape(o: Obstacle, i: nat, d: seq<real>, p: nat, cols: int, rows: int, theme: string)
    requires p + 6 <= |d|
    requires forall k :: p <= k < p + 6 ==> 0.0 <= d[k] < 1.0
    requires cols >= 5 && rows >= 5
    requires DrawnObstacle(o, i, d, p, cols, rows, theme)
    ensures 2.0 <= o.x <= (cols - 3) as real && 2.0 <= o.y <= (rows - 3) as real
    ensures !(AbsReal(o.x - 10.0) < 5.0 && AbsReal(o.y - 10.0) < 5.0)
    ensures o.target.Some? <==> o.kind == TELEPORT
    ensures o.target.Some? ==> 2 <= o.target.value.x <= cols - 3 && 2 <= o.target.value.y <= rows - 3
    ensures o.moveRange.Some? <==> o.kind == MOVING_WALL
    ensures o.moveRange.Some? ==> o.moveRange.value in {2.0, 3.0, 4.0}
    ensures o.moveSpeed.Some? ==> 0.002 <= o.moveSpeed.value < 0.005
    ensures o.kind == PILLAR ==> 3.0 <= o.height < 5.0
    ensures o.kind != GIANT_TREE
  {
    CoordInterior(d[p], cols);
    CoordInterior(d[p + 1], rows);
    var ox := Coord(d[p], cols);
    var oy := Coord(d[p + 1], rows);
    assert AbsReal(o.x - 10.0) == AbsInt(ox - 10) as real;
    assert AbsReal(o.y - 10.0) == AbsInt(oy - 10) as real;
    if o.kind == TELEPORT {
      CoordInterior(d[p + 3], cols);
      CoordInterior(d[p + 4], rows);
    }
    if o.kind == MOVING_WALL {
      var f := (d[p + 4] * 3.0).Floor;
      assert 0 <= f <= 2;
    }
  }

  /** The landmark a theme appends after the loop, if any. */
  predicate LandmarkTheme(theme: string)
  {
    theme == "2001" || theme == "avatar"
  }

  /** The landmark sits on the centre cell, never teleports and never
      moves: the monolith is a 4x1 WALL, the tree a 10x40 GIANT_TREE. */
  function Landmark(theme: string, cols: int, rows: int): (o: Obstacle)
    requires LandmarkTheme(theme)
    ensures o.x == (cols / 2) as real && o.y == (rows / 2) as real
    ensures o.target.None? && o.moveAxis.None? && o.moveRange.None? && o.moveSpeed.None?
    ensures o.kind == (if theme == "2001" then WALL else GIANT_TREE)
    ensures !o.id.ObsNumbered?
  {
    var cx, cy := (cols / 2) as real, (rows / 2) as real;
    if theme == "2001" then
      Obstacle(MonolithMain, cx, cy, 4.0, 1.0, WALL, None, Some(cx), Some(cy), None, None, None)
    else
      Obstacle(GiantTreeMain, cx, cy, 10.0, 40.0, GIANT_TREE, None, Some(cx), Some(cy), None, None, None)
  }

  predicate UnitDraws(d: seq<real>)
  {
    forall k :: 0 <= k < |d| ==> 0.0 <= d[k] < 1.0
  }

  /** How many draws a kept candidate of type `t` reads after its anchor and
      type draws: a teleport's target, a moving wall's axis, range and speed,
      a pillar's height. */
  function ExtraDraws(t: ObstacleType): nat
  {
    match t
    case TELEPORT => 2
    case MOVING_WALL => 3
    case PILLAR => 1
    case _ => 0
  }

  /** Whether the candidate whose draws start at `c` is kept: its anchor
      lies outside the spawn square. */
  predicate Kept(d: seq<real>, c: nat, cols: int, rows: int)
    requires c + 2 <= |d|
  {
    !NearSpawn(Coord(d[c], cols), Coord(d[c + 1], rows))
  }

  /** Where the draws of candidate `i` start. A rejected candidate consumes
      its two anchor draws; a kept one its type draw and its extra draws as
      well. Every candidate consumes between two and six draws. */
  function Cursor(d: seq<real>, i: nat, cols: int, rows: int, theme: string): (c: nat)
    requires 6 * i <= |d|
    ensures 2 * i <= c <= 6 * i
    decreases i
  {
    if i == 0 then 0
    else
      var p := Cursor(d, i - 1, cols, rows, theme);
      if Kept(d, p, cols, rows) then p + 3 + ExtraDraws(Ladder(d[p + 2], theme)) else p + 2
  }

  /** The cursor after candidate `i`, in terms of the cursor before it. */
  lemma CursorAdvances(d: seq<real>, i: nat, cols: int, rows: int, theme: string)
    requires 6 * (i + 1) <= |d|
    ensures var c := Cursor(d, i, cols, rows, theme);
      Cursor(d, i + 1, cols, rows, theme) ==
        if Kept(d, c, cols, rows) then c + 3 + ExtraDraws(Ladder(d[c + 2], theme)) else c + 2
  {
  }

  /** The indices below `n` of the kept candidates, in increasing order. */
  function KeptCandidates(d: seq<real>, n: nat, cols: int, rows: int, theme: string): (ids: seq<nat>)
    requires 6 * n <= |d|
    ensures |ids| <= n
    ensures forall k :: 0 <= k < |ids| ==> ids[k] < n
    ensures forall k, l :: 0 <= k < l < |ids| ==> ids[k] < ids[l]
    ensures forall i :: 0 <= i < n ==> (i in ids <==> Kept(d, Cursor(d, i, cols, rows, theme), cols, rows))
    decreases n
  {
    if n == 0 then []
    else
      var prior := KeptCandidates(d, n - 1, cols, rows, theme);
      if Kept(d, Cursor(d, n - 1, cols, rows, theme), cols, rows) then prior + [n - 1] else prior
  }

  /** `obs` is what the loop has pushed after the first `n` candidates: one
      obstacle per kept candidate, in order, each the DrawnObstacle of the
      draws at its cursor. */
  predicate GeneratedPrefix(obs: seq<Obstacle>, d: seq<real>, n: nat, cols: int, rows: int, theme: string)
    requires 6 * n <= |d|
  {
    var ids := KeptCandidates(d, n, cols, rows, theme);
    && |obs| == |ids|
    && forall k :: 0 <= k < |ids| ==>
         DrawnObstacle(obs[k], ids[k], d, Cursor(d, ids[k], cols, rows, theme), cols, rows, theme)
  }

  /** A rejected candidate leaves the prefix as it is. */
  lemma RejectedKeepsPrefix(obs: seq<Obstacle>, d: seq<real>, i: nat, cols: int, rows: int, theme: string)
    requires 6 * (i + 1) <= |d|
    requires GeneratedPrefix(obs, d, i, cols, rows, theme)
    requires !Kept(d, Cursor(d, i, cols, rows, theme), cols, rows)
    ensures GeneratedPrefix(obs, d, i + 1, cols, rows, theme)
  {
    assert KeptCandidates(d, i + 1, cols, rows, theme) == KeptCandidates(d, i, cols, rows, theme);
  }

  /** A kept candidate appends its DrawnObstacle to the prefix. */
  lemma KeptExtendsPrefix(obs: seq<Obstacle>, o: Obstacle, d: seq<real>, i: nat, cols: int, rows: int,
                          theme: string)
    requires 6 * (i + 1) <= |d|
    requires GeneratedPrefix(obs, d, i, cols, rows, theme)
    requires Kept(d, Cursor(d, i, cols, rows, theme), cols, rows)
    requires DrawnObstacle(o, i, d, Cursor(d, i, cols, rows, theme), cols, rows, theme)
    ensures GeneratedPrefix(obs + [o], d, i + 1, cols, rows, theme)
  {
    var ids := KeptCandidates(d, i, cols, rows, theme);
    assert KeptCandidates(d, i + 1, cols, rows, theme) == ids + [i];
  }

  /** The field `generateObstacles` returns for these draws: the kept
      candidates among the first Budget, in order, each the DrawnObstacle of
      the draws at its cursor, then the theme's landmark if it has one. */
  predicate GeneratedField(obs: seq<Obstacle>, d: seq<real>, cols: nat, rows: nat, theme: string)
    requires 6 * Budget(cols, rows) <= |d|
    ensures GeneratedField(obs, d, cols, rows, theme) ==>
      && |obs| <= Budget(cols, rows) + 1
      && (LandmarkTheme(theme) ==> |obs| > 0 && obs[|obs| - 1] == Landmark(theme, cols, rows))
      && (forall k, l :: 0 <= k < l < |obs| ==> obs[k].id != obs[l].id)
  {
    var n := |KeptCandidates(d, Budget(cols, rows), cols, rows, theme)|;
    && |obs| == n + (if LandmarkTheme(theme) then 1 else 0)
    && GeneratedPrefix(obs[..n], d, Budget(cols, rows), cols, rows, theme)
    && (LandmarkTheme(theme) ==> obs[n] == Landmark(theme, cols, rows))
  }

  /** With a candidate count of zero (fewer than 100 cells, as on the 0x0
      viewport) the field is at most the landmark, which has no teleport
      target, so its targets are inside any grid. */
  lemma EmptyBudgetHasNoTargets(obs: seq<Obstacle>, d: seq<real>, cols: nat, rows: nat, theme: string,
                                gridCols: int, gridRows: int)
    requires Budget(cols, rows) == 0
    requires GeneratedField(obs, d, cols, rows, theme)
    ensures forall k :: 0 <= k < |obs| ==> obs[k].target.None?
    ensures TargetsInside(obs, gridCols, gridRows)
  {
    assert KeptCandidates(d, 0, cols, rows, theme) == [];
  }

  /** One kept candidate: the type draw at `c + 2`, then the draws its type
      consumes. `next` is where the following candidate's draws start. */
  method DrawCandidate(i: nat, draws: seq<real>, c: nat, cols: int, rows: int, theme: string)
    returns (o: Obstacle, next: nat)
    requires c + 6 <= |draws|
    requires Kept(draws, c, cols, rows)
    ensures DrawnObstacle(o, i, draws, c, cols, rows, theme)
    ensures next == c + 3 + ExtraDraws(o.kind)
  {
    var ox := Coord(draws[c], cols);
    var oy := Coord(draws[c + 1], rows);
    var rand := draws[c + 2];
    next := c + 3;
    var kind := WALL;
    var target: Option<Point> := None;
    var w, h := 1.0, 1.0;
    var axis: Option<Axis> := None;
    var range: Option<real> := None;
    var speed: Option<real> := None;
    if rand < 0.08 {
      kind := BOOST;
    } else if rand < 0.16 {
      kind := SLOW;
    } else if rand < 0.20 {
      kind := TELEPORT;
      target := Some(Point(Coord(draws[next], cols), Coord(draws[next + 1], rows)));
      next := next + 2;
    } else if rand < 0.30 {
      kind := MOVING_WALL;
      axis := Some(if draws[next] > 0.5 then X else Y);
      range := Some(((draws[next + 1] * 3.0).Floor + 2) as real);
      speed := Some(0.002 + draws[next + 2] * 0.003);
      next := next + 3;
    } else if rand < 0.35 {
      kind := PILLAR;
      h := 3.0 + draws[next] * 2.0;
      next := next + 1;
    } else if theme == "star-wars" && rand > 0.95 {
      kind := DECORATION;
    } else if theme == "dune" && rand > 0.98 {
      kind := DECORATION;
      w, h := 3.0, 12.0;
    } else if theme == "alien" && rand > 0.98 {
      kind := DECORATION;
      w, h := 2.0, 4.0;
    } else if (theme == "minority-report" || theme == "blade-runner" || theme == "br2049") && rand > 0.95 {
      kind := DECORATION;
      w, h := 2.0, 1.0;
    }
    o := Obstacle(ObsNumbered(i), ox as real, oy as real, w, h, kind, target,
                  Some(ox as real), Some(oy as real), range, speed, axis);
  }

  /** The candidate loop of `generateObstacles`: `count` candidates, each
      rejected when its anchor falls in the spawn square and pushed
      otherwise. */
  method PushCandidates(count: nat, draws: seq<real>, cols: int, rows: int, theme: string)
    returns (obs: seq<Obstacle>)
    requires 6 * count <= |draws|
    ensures GeneratedPrefix(obs, draws, count, cols, rows, theme)
  {
    obs := [];
    var c := 0;
    for i := 0 to count
      invariant c == Cursor(draws, i, cols, rows, theme)
      invariant GeneratedPrefix(obs, draws, i, cols, rows, theme)
    {
      var ox := Coord(draws[c], cols);
      var oy := Coord(draws[c + 1], rows);
      CursorAdvances(draws, i, cols, rows, theme);
      if NearSpawn(ox, oy) {
        RejectedKeepsPrefix(obs, draws, i, cols, rows, theme);
        c := c + 2;
      } else {
        var o, next := DrawCandidate(i, draws, c, cols, rows, theme);
        KeptExtendsPrefix(obs, o, draws, i, cols, rows, theme);
        obs := obs + [o];
        c := next;
      }
    }
  }

  /** `generateObstacles(w, h)` for the theme `theme`: exactly the field
      GeneratedField describes, so at most Budget candidates plus the
      landmark, with every teleport target in the interior ranges. */
  method GenerateObstacles(width: int, height: int, theme: string, draws: seq<real>)
    returns (obs: seq<Obstacle>)
    requires width >= 0 && height >= 0
    requires UnitDraws(draws)
    requires |draws| >= 6 * Budget(CellsAcross(width), CellsAcross(height))
    ensures GeneratedField(obs, draws, CellsAcross(width), CellsAcross(height), theme)
    ensures |obs| <= Budget(CellsAcross(width), CellsAcross(height)) + (if LandmarkTheme(theme) then 1 else 0)
    ensures CellsAcross(width) >= 5 && CellsAcross(height) >= 5 ==>
              TargetsInside(obs, CellsAcross(width), CellsAcross(height))
  {
    var cols := CellsAcross(width);
    var rows := CellsAcross(height);
    obs := PushCandidates(Budget(cols, rows), draws, cols, rows, theme);
    ghost var pushed := obs;
    if theme == "2001" {
      obs := obs + [Landmark(theme, cols, rows)];
    }
    if theme == "avatar" {
      obs := obs + [Landmark(theme, cols, rows)];
    }
    assert obs[..|pushed|] == pushed;
    if cols >= 5 && rows >= 5 {
      GeneratedTargetsInside(obs, draws, cols, rows, theme);
    }
  }

  /** Generation only puts teleport targets in the interior ranges. */
  lemma GeneratedTargetsInside(obs: seq<Obstacle>, draws: seq<real>, cols: nat, rows: nat, theme: string)
    requires UnitDraws(draws)
    requires cols >= 5 && rows >= 5
    requires 6 * Budget(cols, rows) <= |draws|
    requires GeneratedField(obs, draws, cols, rows, theme)
    ensures TargetsInside(obs, cols, rows)
  {
    var ids := KeptCandidates(draws, Budget(cols, rows), cols, rows, theme);
    assert GeneratedPrefix(obs[..|ids|], draws, Budget(cols, rows), cols, rows, theme);
    forall k | 0 <= k < |obs| && obs[k].target.Some?
      ensures 2 <= obs[k].target.value.x <= cols - 3 && 2 <= obs[k].target.value.y <= rows - 3
    {
      if k < |ids| {
        assert obs[..|ids|][k] == obs[k];
        DrawnObstacleShape(obs[k], ids[k], draws, Cursor(draws, ids[k], cols, rows, theme), cols, rows, theme);
      }
    }
  }
}

=== FILE: grid.dfy ===
/** The grid world: its size derived from the viewport, the bounds test, and
    one-cell steps along a heading (src/App.tsx). */
module Grid {
  import opened Types

  function AbsInt(n: int): (r: nat)
    ensures r == n || r == -n
  {
    if n < 0 then -n else n
  }

  function AbsReal(v: real): (r: real)
    ensures r >= 0.0 && (r == v || r == -v)
  {
    if v < 0.0 then -v else v
  }

  /** `Math.floor((w / GRID_SIZE) * WORLD_SCALE)`: the number of cells along a
      viewport side of `w` pixels. */
  function CellsAcross(w: int): (n: int)
    requires w >= 0
    ensures n == w / 3
  {
    var q, m := w / 3, w % 3;
    assert w as real == 3.0 * q as real + m as real;
    assert (w as real / GRID_SIZE as real) * WORLD_SCALE as real == q as real + m as real / 3.0;
    ((w as real / GRID_SIZE as real) * WORLD_SCALE as real).Floor
  }

  /** A cell is occupiable when `0 <= x < cols` and `0 <= y < rows`. */
  predicate InBounds(p: Point, cols: int, rows: int)
  {
    0 <= p.x < cols && 0 <= p.y < rows
  }

  /** The cell one step from `p` along `d`. */
  function Step(p: Point, d: Direction): (q: Point)
    ensures AbsInt(q.x - p.x) + AbsInt(q.y - p.y) == 1
    ensures d == UP ==> q.y < p.y
    ensures d == DOWN ==> q.y > p.y
    ensures d == LEFT ==> q.x < p.x
    ensures d == RIGHT ==> q.x > p.x
  {
    match d
    case UP => Point(p.x, p.y - 1)
    case DOWN => Point(p.x, p.y + 1)
    case LEFT => Point(p.x - 1, p.y)
    case RIGHT => Point(p.x + 1, p.y)
  }

  /** The 180-degree reverse of a heading. */
  function Opposite(d: Direction): (r: Direction)
    ensures r != d
  {
    match d
    case UP => DOWN
    case DOWN => UP
    case LEFT => RIGHT
    case RIGHT => LEFT
  }

  /** Stepping along the reverse heading undoes a step. */
  lemma OppositeUndoesStep(p: Point, d: Direction)
    ensures Step(Step(p, d), Opposite(d)) == p
    ensures Opposite(Opposite(d)) == d
  {
  }
}

=== FILE: rules.dfy ===
/** The engine's transitions as functions on a snapshot of its state
    (src/App.tsx). Each tick reads the state the callbacks captured when they
    were built: the player's step sees the opponent's pre-tick trail, and the
    opponent's step sees the player's pre-tick cell and trail. */
module Rules {
  import opened Types
  import opened Grid
  import opened Controls
  import opened Generation

  /** Everything the component keeps in state that the simulation reads or
      writes, plus the time of the last tick. */
  datatype World = World(
    gameState: GameState,
    score: int,
    highScore: int,
    playerPos: Point,
    playerTrail: seq<Point>,
    direction: Direction,
    nextDirection: Direction,
    obstacles: seq<Obstacle>,
    speed: real,
    throttle: int,
    lives: int,
    invulnerableUntil: real,
    opponentPos: Point,
    opponentTrail: seq<Point>,
    opponentDirection: Direction,
    opponentAlive: bool,
    lastMoveTime: real)

  // ---------------------------------------------------------------- player

  /** The forgiving contact test: within 0.7 of the anchor on both axes. */
  predicate Near(o: Obstacle, c: Point)
  {
    AbsReal(o.x - c.x as real) < 0.7 && AbsReal(o.y - c.y as real) < 0.7
  }

  /** `obstacles.find(...)`: the index of the first obstacle in contact. */
  function FirstNear(obs: seq<Obstacle>, c: Point): (r: Option<nat>)
    ensures r.Some? ==> r.value < |obs| && Near(obs[r.value], c)
    ensures r.Some? ==> forall j :: 0 <= j < r.value ==> !Near(obs[j], c)
    ensures r.None? <==> forall j :: 0 <= j < |obs| ==> !Near(obs[j], c)
  {
    if |obs| == 0 then None
    else if Near(obs[0], c) then Some(0)
    else
      match FirstNear(obs[1..], c)
      case None => None
      case Some(i) => Some(i + 1)
  }

  predicate Lethal(t: ObstacleType)
  {
    t == WALL || t == MOVING_WALL || t == PILLAR
  }

  datatype Cause = OffGrid | OwnTrail | OpponentTrail | HitObstacle(kind: ObstacleType)

  datatype Effect = Plain | Boost | Slow | Teleport

  /** The resolver's verdict on a candidate cell: a hit, or the cell the
      player ends on and the pad effect. */
  datatype Verdict = Blocked(cause: Cause) | Accepted(cell: Point, effect: Effect)

  /** The fixed-priority collision checks: bounds, own trail, opponent trail,
      then the first obstacle in contact. */
  function Resolve(cand: Point, trail: seq<Point>, opponentTrail: seq<Point>, obs: seq<Obstacle>, cols: int, rows: int): (v: Verdict)
    ensures v.Accepted? ==> InBounds(cand, cols, rows) && cand !in trail && cand !in opponentTrail
    ensures v == Blocked(OffGrid) <==> !InBounds(cand, cols, rows)
    ensures v.Accepted? && v.effect != Teleport ==> v.cell == cand
    ensures v.Blocked? && v.cause.HitObstacle? ==> Lethal(v.cause.kind)
  {
    if !InBounds(cand, cols, rows) then Blocked(OffGrid)
    else if cand in trail then Blocked(OwnTrail)
    else if cand in opponentTrail then Blocked(OpponentTrail)
    else
      match FirstNear(obs, cand)
      case None => Accepted(cand, Plain)
      case Some(i) =>
        var o := obs[i];
        if Lethal(o.kind) then Blocked(HitObstacle(o.kind))
        else if o.kind == BOOST then Accepted(cand, Boost)
        else if o.kind == SLOW then Accepted(cand, Slow)
        else if o.kind == TELEPORT && o.target.Some? then Accepted(o.target.value, Teleport)
        else Accepted(cand, Plain)
  }

  /** The resolver blocks a move exactly when the cell is off the grid, on
      either trail (a dead opponent's trail included), or the first obstacle
      in contact is a WALL, MOVING_WALL or PILLAR. An accepted move ends on the
      candidate, or on the stored target of the teleporter in contact. */
  lemma ResolveCases(cand: Point, trail: seq<Point>, opponentTrail: seq<Point>, obs: seq<Obstacle>, cols: int, rows: int)
    ensures var v := Resolve(cand, trail, opponentTrail, obs, cols, rows);
      && (v.Blocked? <==>
            || !InBounds(cand, cols, rows)
            || cand in trail
            || cand in opponentTrail
            || (FirstNear(obs, cand).Some? && Lethal(obs[FirstNear(obs, cand).value].kind)))
      && (v.Accepted? ==>
            var f := FirstNear(obs, cand);
            if f.Some? && obs[f.value].kind == TELEPORT && obs[f.value].target.Some?
            then v.cell == obs[f.value].target.value && v.effect == Teleport
            else v.cell == cand)
      && (v.Accepted? ==>
            var f := FirstNear(obs, cand);
            && (f.Some? && obs[f.value].kind == BOOST ==> v.effect == Boost)
            && (f.Some? && obs[f.value].kind == SLOW ==> v.effect == Slow)
            && ((f.None? || (obs[f.value].kind != BOOST && obs[f.value].kind != SLOW &&
                             !(obs[f.value].kind == TELEPORT && obs[f.value].target.Some?))) ==>
                  v.effect == Plain))
  {
  }

  /** `gameOver`: terminal state, high score raised to the score the callback
      captured. */
  function EndSession(w: World): (r: World)
    ensures r.gameState == GAMEOVER
    ensures r.highScore >= w.score && r.highScore >= w.highScore
    ensures r.highScore == w.score || r.highScore == w.highScore
    ensures r == w.(gameState := GAMEOVER, highScore := r.highScore)
  {
    w.(gameState := GAMEOVER, highScore := if w.score > w.highScore then w.score else w.highScore)
  }

  /** `handleHit` at clock reading `now`. */
  function HitEffect(w: World, now: real): (r: World)
    ensures w.lives - 1 <= r.lives <= w.lives
    ensures w.lives >= 1 ==> r.lives >= 1
    ensures r.gameState == w.gameState || r.gameState == GAMEOVER
    ensures r.score == w.score && r.highScore >= w.highScore
    ensures r.playerPos == w.playerPos && (r.playerTrail == w.playerTrail || r.playerTrail == [w.playerPos])
    ensures r == w.(lives := r.lives, invulnerableUntil := r.invulnerableUntil, playerTrail := r.playerTrail,
                    gameState := r.gameState, highScore := r.highScore)
  {
    if now < w.invulnerableUntil then w
    else if w.lives > 1 then
      w.(lives := w.lives - 1, invulnerableUntil := now + INVULNERABILITY_TIME, playerTrail := [w.playerPos])
    else EndSession(w)
  }

  /** A hit inside the invulnerability window changes nothing; otherwise it
      costs a life, grants 2000 ms and cuts the trail to the current cell, or
      on the last life ends the game without touching lives, with the high
      score the maximum of the old high score and the score. */
  lemma HitEffectCases(w: World, now: real)
    ensures now < w.invulnerableUntil ==> HitEffect(w, now) == w
    ensures now >= w.invulnerableUntil && w.lives > 1 ==>
      HitEffect(w, now) == w.(lives := w.lives - 1, invulnerableUntil := now + 2000.0, playerTrail := [w.playerPos])
    ensures now >= w.invulnerableUntil && w.lives <= 1 ==>
      && HitEffect(w, now).gameState == GAMEOVER
      && HitEffect(w, now).lives == w.lives
      && HitEffect(w, now).highScore >= w.score
      && HitEffect(w, now).highScore >= w.highScore
      && (HitEffect(w, now).highScore == w.score || HitEffect(w, now).highScore == w.highScore)
      && HitEffect(w, now) == w.(gameState := GAMEOVER, highScore := HitEffect(w, now).highScore)
  {
  }

  /** Two hits, the second before the window the first opened closes, cost
      at most one life between them, and never take lives below one. */
  lemma RepeatedHitsCostOneLife(w: World, t1: real, t2: real)
    requires w.lives >= 1
    requires t1 <= t2 < t1 + INVULNERABILITY_TIME
    ensures HitEffect(HitEffect(w, t1), t2).lives >= w.lives - 1
    ensures HitEffect(HitEffect(w, t1), t2).lives >= 1
  {
    var w1 := HitEffect(w, t1);
    if t1 < w.invulnerableUntil {
      assert w1 == w;
      if t2 >= w.invulnerableUntil && w.lives > 1 {
        assert HitEffect(w1, t2).lives == w.lives - 1;
      }
    } else if w.lives > 1 {
      assert w1.invulnerableUntil == t1 + INVULNERABILITY_TIME;
      assert HitEffect(w1, t2) == w1;
    }
  }

  function ApplyEffect(speed: real, e: Effect): real
  {
    match e
    case Boost => Boosted(speed)
    case Slow => Slowed(speed)
    case _ => speed
  }

  /** `movePlayer`: commit the requested heading, resolve the candidate cell,
      then either hit or move. */
  function PlayerStep(w: World, cols: int, rows: int, now: real): (r: World)
    ensures r.direction == w.nextDirection && r.nextDirection == w.nextDirection
    ensures r.score == w.score || r.score == w.score + 1
    ensures r.highScore >= w.highScore
    ensures w.lives >= 1 ==> r.lives >= 1
    ensures r.obstacles == w.obstacles && r.throttle == w.throttle
    ensures r.opponentPos == w.opponentPos && r.opponentTrail == w.opponentTrail
    ensures r.opponentDirection == w.opponentDirection && r.opponentAlive == w.opponentAlive
  {
    var committed := w.(direction := w.nextDirection);
    var cand := Step(w.playerPos, w.nextDirection);
    match Resolve(cand, w.playerTrail, w.opponentTrail, w.obstacles, cols, rows)
    case Blocked(_) => HitEffect(committed, now)
    case Accepted(cell, effect) =>
      committed.(playerPos := cell, playerTrail := w.playerTrail + [cell], score := w.score + 1,
                 speed := ApplyEffect(w.speed, effect))
  }

  /** A blocked move leaves the player where it was and adds nothing to the
      score, invulnerable or not, and costs exactly what a hit costs; an
      accepted one appends exactly the cell it ends on, adds exactly one and
      applies the pad's effect to the interval. Either way the requested
      heading is committed. */
  lemma PlayerStepOutcome(w: World, cols: int, rows: int, now: real)
    ensures var cand := Step(w.playerPos, w.nextDirection);
      var v := Resolve(cand, w.playerTrail, w.opponentTrail, w.obstacles, cols, rows);
      var w' := PlayerStep(w, cols, rows, now);
      && w'.direction == w.nextDirection
      && w'.nextDirection == w.nextDirection
      && w'.obstacles == w.obstacles
      && w'.opponentTrail == w.opponentTrail && w'.opponentPos == w.opponentPos
      && (v.Blocked? ==> w'.playerPos == w.playerPos && w'.score == w.score && w'.speed == w.speed)
      && (v.Blocked? ==> w' == HitEffect(w.(direction := w.nextDirection), now))
      && (v.Blocked? && now < w.invulnerableUntil ==> w' == w.(direction := w.nextDirection))
      && (v.Accepted? ==>
            && w'.speed == ApplyEffect(w.speed, v.effect)
            && w'.playerPos == v.cell
            && w'.playerTrail == w.playerTrail + [v.cell]
            && w'.score == w.score + 1
            && w'.lives == w.lives
            && w'.gameState == w.gameState)
  {
  }

  // -------------------------------------------------------------- opponent

  /** The opponent's obstacle test: inside the rectangle of any obstacle
      other than a BOOST or SLOW pad. */
  predicate BlocksOpponent(o: Obstacle, c: Point)
  {
    && o.x <= c.x as real < o.x + o.width
    && o.y <= c.y as real < o.y + o.height
    && o.kind != BOOST && o.kind != SLOW
  }

  /** The legality filter for one heading. */
  predicate IsLegal(d: Direction, head: Point, heading: Direction, cols: int, rows: int, obs: seq<Obstacle>,
                    playerPos: Point, playerTrail: seq<Point>, opponentTrail: seq<Point>)
  {
    var c := Step(head, d);
    && InBounds(c, cols, rows)
    && !(exists k :: 0 <= k < |obs| && BlocksOpponent(obs[k], c))
    && c !in playerTrail
    && c != playerPos
    && c !in opponentTrail
    && d != Opposite(heading)
  }

  /** `['UP', 'DOWN', 'LEFT', 'RIGHT'].filter(...)`. */
  function LegalMoves(head: Point, heading: Direction, cols: int, rows: int, obs: seq<Obstacle>,
                      playerPos: Point, playerTrail: seq<Point>, opponentTrail: seq<Point>): (r: seq<Direction>)
    ensures forall d :: d in r <==> IsLegal(d, head, heading, cols, rows, obs, playerPos, playerTrail, opponentTrail)
    ensures forall i, j :: 0 <= i < j < |r| ==> r[i] != r[j]
    ensures |r| <= 3
  {
    var u := IsLegal(UP, head, heading, cols, rows, obs, playerPos, playerTrail, opponentTrail);
    var dn := IsLegal(DOWN, head, heading, cols, rows, obs, playerPos, playerTrail, opponentTrail);
    var l := IsLegal(LEFT, head, heading, cols, rows, obs, playerPos, playerTrail, opponentTrail);
    var rt := IsLegal(RIGHT, head, heading, cols, rows, obs, playerPos, playerTrail, opponentTrail);
    assert !(u && dn && l && rt) by {
      assert !IsLegal(Opposite(heading), head, heading, cols, rows, obs, playerPos, playerTrail, opponentTrail);
    }
    Filtered(u, dn, l, rt)
  }

  /** The filter's output for the four verdicts, in the order UP, DOWN,
      LEFT, RIGHT. */
  function Filtered(u: bool, dn: bool, l: bool, rt: bool): (r: seq<Direction>)
    ensures forall e :: e in r <==> (e == UP && u) || (e == DOWN && dn) || (e == LEFT && l) || (e == RIGHT && rt)
    ensures forall i, j :: 0 <= i < j < |r| ==> r[i] != r[j]
    ensures |r| <= 4 && (|r| == 4 <==> u && dn && l && rt)
  {
    var tail := (if l then [LEFT] else []) + (if rt then [RIGHT] else []);
    var mid := (if dn then [DOWN] else []) + tail;
    assert forall e :: e in mid ==> e != UP;
    (if u then [UP] else []) + mid
  }

  /** `Math.floor(r * n)` for a draw r in [0,1): an index below n, namely
      the j with j <= r * n < j + 1. */
  function PickIndex(r: real, n: nat): (i: nat)
    requires 0.0 <= r < 1.0 && n > 0
    ensures i < n
    ensures i as real <= r * n as real < i as real + 1.0
  {
    assert r * n as real < n as real by {
      assert (1.0 - r) * n as real > 0.0;
    }
    (r * n as real).Floor
  }

  /** Keep the current heading when it is legal and the persistence draw is
      above 0.1; otherwise the legal heading the pick draw indexes. */
  function ChooseHeading(valid: seq<Direction>, heading: Direction, persistDraw: real, pickDraw: real): (d: Direction)
    requires |valid| > 0
    requires 0.0 <= pickDraw < 1.0
    ensures d in valid
    ensures heading in valid && persistDraw > 0.1 ==> d == heading
    ensures !(heading in valid && persistDraw > 0.1) ==> d == valid[PickIndex(pickDraw, |valid|)]
  {
    if heading in valid && persistDraw > 0.1 then heading
    else valid[PickIndex(pickDraw, |valid|)]
  }

  /** When the heading is not kept, every legal heading is reachable: the
      j-th one is chosen by exactly the pick draws in [j/n, (j+1)/n), where
      n is the number of legal headings. */
  lemma EveryLegalHeadingCanBeChosen(valid: seq<Direction>, heading: Direction, persistDraw: real, pickDraw: real,
                                     j: nat)
    requires j < |valid|
    requires 0.0 <= pickDraw < 1.0
    requires !(heading in valid && persistDraw > 0.1)
    ensures j as real / |valid| as real <= pickDraw < (j + 1) as real / |valid| as real ==>
      ChooseHeading(valid, heading, persistDraw, pickDraw) == valid[j]
    ensures 0.0 <= j as real / |valid| as real < 1.0
  {
    var n := |valid| as real;
    if j as real / n <= pickDraw < (j + 1) as real / n {
      UnscaleBound(j as real, n, pickDraw);
      UnscaleBound(pickDraw, n, (j + 1) as real / n);
      assert PickIndex(pickDraw, |valid|) == j;
    }
  }

  /** Multiplying a strict or non-strict bound by a positive n. */
  lemma UnscaleBound(a: real, n: real, b: real)
    requires n > 0.0
    ensures a <= b ==> a * n <= b * n
    ensures a < b ==> a * n < b * n
    ensures (a / n) * n == a
  {
  }

  /** `moveOpponent`, reading the player's cell and trail as captured before
      the tick. */
  function OpponentStep(w: World, playerPos: Point, playerTrail: seq<Point>, cols: int, rows: int,
                        persistDraw: real, pickDraw: real): (r: World)
    requires 0.0 <= pickDraw < 1.0
    ensures r.score == w.score || r.score == w.score + 500
    ensures r.opponentAlive ==> w.opponentAlive
    ensures w.opponentTrail <= r.opponentTrail && |r.opponentTrail| <= |w.opponentTrail| + 1
    ensures r == w.(opponentPos := r.opponentPos, opponentTrail := r.opponentTrail,
                    opponentDirection := r.opponentDirection, opponentAlive := r.opponentAlive, score := r.score)
  {
    if !w.opponentAlive then w
    else
      var valid := LegalMoves(w.opponentPos, w.opponentDirection, cols, rows, w.obstacles,
                              playerPos, playerTrail, w.opponentTrail);
      if |valid| == 0 then w.(opponentAlive := false, score := w.score + 500)
      else
        var d := ChooseHeading(valid, w.opponentDirection, persistDraw, pickDraw);
        var c := Step(w.opponentPos, d);
        w.(opponentDirection := d, opponentPos := c, opponentTrail := w.opponentTrail + [c])
  }

  /** A living opponent with a legal heading moves one cell along a legal
      heading: in bounds, off both trails, off the player's cell, outside every
      non-pad obstacle, never reversing, and the cell is appended to its trail.
      With no legal heading it dies where it stands and the score gains
      exactly 500. A dead opponent never moves again. Nothing else changes. */
  lemma OpponentStepOutcome(w: World, playerPos: Point, playerTrail: seq<Point>, cols: int, rows: int,
                            persistDraw: real, pickDraw: real)
    requires 0.0 <= pickDraw < 1.0
    ensures var w' := OpponentStep(w, playerPos, playerTrail, cols, rows, persistDraw, pickDraw);
      var legal := LegalMoves(w.opponentPos, w.opponentDirection, cols, rows, w.obstacles,
                              playerPos, playerTrail, w.opponentTrail);
      && (!w.opponentAlive ==> w' == w)
      && (w.opponentAlive && |legal| == 0 ==>
            w' == w.(opponentAlive := false, score := w.score + 500))
      && (w.opponentAlive && |legal| > 0 ==>
            && w'.opponentAlive
            && w'.opponentDirection in legal
            && w'.opponentDirection != Opposite(w.opponentDirection)
            && w'.opponentPos == Step(w.opponentPos, w'.opponentDirection)
            && InBounds(w'.opponentPos, cols, rows)
            && w'.opponentPos !in playerTrail
            && w'.opponentPos != playerPos
            && w'.opponentPos !in w.opponentTrail
            && (forall k :: 0 <= k < |w.obstacles| ==> !BlocksOpponent(w.obstacles[k], w'.opponentPos))
            && w'.opponentTrail == w.opponentTrail + [w'.opponentPos]
            && w' == w.(opponentDirection := w'.opponentDirection, opponentPos := w'.opponentPos,
                        opponentTrail := w'.opponentTrail))
  {
    if w.opponentAlive {
      var legal := LegalMoves(w.opponentPos, w.opponentDirection, cols, rows, w.obstacles,
                              playerPos, playerTrail, w.opponentTrail);
      if |legal| > 0 {
        var d := ChooseHeading(legal, w.opponentDirection, persistDraw, pickDraw);
        assert IsLegal(d, w.opponentPos, w.opponentDirection, cols, rows, w.obstacles,
                       playerPos, playerTrail, w.opponentTrail);
      }
    }
  }

  // ------------------------------------------------------------------ loop

  /** One tick: the player moves, then the opponent, both on the state
      captured before the tick. */
  function Tick(w: World, cols: int, rows: int, now: real, persistDraw: real, pickDraw: real): (r: World)
    requires 0.0 <= pickDraw < 1.0
    ensures r.direction == w.nextDirection
    ensures w.score <= r.score <= w.score + 501
    ensures r.highScore >= w.highScore
    ensures w.lives >= 1 ==> r.lives >= 1
    ensures r.obstacles == w.obstacles
    ensures r.opponentAlive ==> w.opponentAlive
  {
    OpponentStep(PlayerStep(w, cols, rows, now), w.playerPos, w.playerTrail, cols, rows, persistDraw, pickDraw)
  }

  /** A MOVING_WALL with all of its oscillation fields set (and its range
      and speed non-zero, which the source's truthiness test demands). */
  predicate Oscillates(o: Obstacle)
  {
    && o.kind == MOVING_WALL
    && o.moveAxis.Some? && o.moveRange.Some? && o.moveRange.value != 0.0
    && o.moveSpeed.Some? && o.moveSpeed.value != 0.0
    && o.startX.Some? && o.startY.Some?
  }

  /** The moving-wall update of one obstacle, given `sine`, the value of
      `Math.sin(time * moveSpeed)` for it: an oscillating wall is moved to
      its start plus `sine * moveRange` along its axis; anything else is
      unchanged. */
  function Oscillate(o: Obstacle, sine: real): (r: Obstacle)
    ensures r == o.(x := r.x, y := r.y)
    ensures !Oscillates(o) ==> r == o
    ensures r.x == o.x || r.y == o.y
  {
    if Oscillates(o) then
      var offset := sine * o.moveRange.value;
      o.(x := if o.moveAxis.value == X then o.startX.value + offset else o.x,
         y := if o.moveAxis.value == Y then o.startY.value + offset else o.y)
    else o
  }

  /** The per-frame wall update. It moves only MOVING_WALL anchors, along
      one axis, and keeps every other field, teleport targets included. */
  function MoveWalls(obs: seq<Obstacle>, sines: seq<real>): (r: seq<Obstacle>)
    requires |sines| == |obs|
    ensures |r| == |obs|
    ensures forall k :: 0 <= k < |obs| ==> r[k] == Oscillate(obs[k], sines[k])
    ensures forall k :: 0 <= k < |obs| ==>
      && r[k] == obs[k].(x := r[k].x, y := r[k].y)
      && (obs[k].kind != MOVING_WALL ==> r[k] == obs[k])
      && (r[k].x == obs[k].x || r[k].y == obs[k].y)
  {
    seq(|obs|, k requires 0 <= k < |obs| => Oscillate(obs[k], sines[k]))
  }

  lemma NonNegativeProduct(a: real, b: real)
    requires a >= 0.0 && b >= 0.0
    ensures a * b >= 0.0
  {
  }

  /** With a sine in [-1,1] an oscillating wall stays within its range of
      its start along its axis, and keeps the other coordinate. */
  lemma OscillationStaysInRange(o: Obstacle, sine: real)
    requires -1.0 <= sine <= 1.0
    requires Oscillates(o)
    ensures var o' := Oscillate(o, sine);
      && (o.moveAxis.value == X ==> AbsReal(o'.x - o.startX.value) <= AbsReal(o.moveRange.value) && o'.y == o.y)
      && (o.moveAxis.value == Y ==> AbsReal(o'.y - o.startY.value) <= AbsReal(o.moveRange.value) && o'.x == o.x)
  {
    var m := o.moveRange.value;
    var offset := sine * m;
    var a := if m >= 0.0 then m else -m;
    NonNegativeProduct(1.0 - sine, a);
    NonNegativeProduct(1.0 + sine, a);
    assert a - AbsReal(offset) >= 0.0 by {
      if (offset >= 0.0) == (m >= 0.0) {
        assert a - AbsReal(offset) == (1.0 - sine) * a;
      } else {
        assert a - AbsReal(offset) == (1.0 + sine) * a;
      }
    }
  }

  /** One animation frame at loop time `time`: a tick when PLAYING and at
      least `speed` ms have passed since the last one; the moving walls' new
      anchors, which the tick itself does not yet see. */
  function Frame(w: World, cols: int, rows: int, time: real, now: real, persistDraw: real, pickDraw: real,
                 sines: seq<real>): (r: World)
    requires 0.0 <= pickDraw < 1.0
    requires |sines| == |w.obstacles|
    ensures |r.obstacles| == |w.obstacles|
    ensures w.score <= r.score <= w.score + 501 && r.highScore >= w.highScore
    ensures r.gameState == w.gameState || r.gameState == GAMEOVER
    ensures w.lives >= 1 ==> r.lives >= 1
    ensures r.opponentAlive ==> w.opponentAlive
  {
    var moved := MoveWalls(w.obstacles, sines);
    if w.gameState == PLAYING && time - w.lastMoveTime >= w.speed then
      Tick(w, cols, rows, now, persistDraw, pickDraw).(lastMoveTime := time, obstacles := moved)
    else
      w.(obstacles := moved)
  }

  /** Outside PLAYING, or before the interval has elapsed, a frame only moves
      the walls. */
  lemma TicksOnlyWhilePlaying(w: World, cols: int, rows: int, time: real, now: real, persistDraw: real, pickDraw: real,
                              sines: seq<real>)
    requires 0.0 <= pickDraw < 1.0
    requires |sines| == |w.obstacles|
    ensures w.gameState != PLAYING || time - w.lastMoveTime < w.speed ==>
      Frame(w, cols, rows, time, now, persistDraw, pickDraw, sines) == w.(obstacles := MoveWalls(w.obstacles, sines))
    ensures w.gameState == PLAYING && time - w.lastMoveTime >= w.speed ==>
      && Frame(w, cols, rows, time, now, persistDraw, pickDraw, sines).lastMoveTime == time
      && Frame(w, cols, rows, time, now, persistDraw, pickDraw, sines).direction == w.nextDirection
  {
  }

  // ------------------------------------------------------- session & input

  /** The component's state when it mounts, before any session. */
  const MOUNTED: World := World(
    gameState := START, score := 0, highScore := 0,
    playerPos := Point(10, 10), playerTrail := [], direction := RIGHT, nextDirection := RIGHT,
    obstacles := [], speed := INITIAL_SPEED, throttle := 0, lives := INITIAL_LIVES, invulnerableUntil := 0.0,
    opponentPos := Point(20, 20), opponentTrail := [], opponentDirection := LEFT, opponentAlive := true,
    lastMoveTime := 0.0)

  /** `startGame`, given the generated field and the clock reading. */
  function Reset(w: World, cols: int, rows: int, obstacles: seq<Obstacle>, now: real): (r: World)
    ensures r.gameState == PLAYING && r.score == 0 && r.highScore == w.highScore
    ensures r.lives == INITIAL_LIVES && r.speed == INITIAL_SPEED && r.throttle == 0
    ensures r.playerTrail == [r.playerPos] && r.opponentTrail == [r.opponentPos] && r.opponentAlive
    ensures r.playerPos == Point(10, 10) && r.opponentPos == Point(cols - 10, rows - 10)
    ensures r.direction == r.nextDirection == RIGHT && r.opponentDirection == LEFT
    ensures r.obstacles == obstacles && r.lastMoveTime == now && r.invulnerableUntil == 0.0
  {
    World(
      gameState := PLAYING,
      score := 0,
      highScore := w.highScore,
      playerPos := Point(10, 10),
      playerTrail := [Point(10, 10)],
      direction := RIGHT,
      nextDirection := RIGHT,
      obstacles := obstacles,
      speed := INITIAL_SPEED,
      throttle := 0,
      lives := INITIAL_LIVES,
      invulnerableUntil := 0.0,
      opponentPos := Point(cols - 10, rows - 10),
      opponentTrail := [Point(cols - 10, rows - 10)],
      opponentDirection := LEFT,
      opponentAlive := true,
      lastMoveTime := now)
  }

  /** `togglePause`: PLAYING and PAUSED swap, resuming restarts the tick
      clock; any other state is left alone. */
  function PauseToggled(w: World, now: real): (r: World)
    ensures w.gameState == PLAYING <==> r.gameState == PAUSED
    ensures w.gameState == PAUSED <==> r.gameState == PLAYING
    ensures r.(gameState := w.gameState, lastMoveTime := w.lastMoveTime) == w
  {
    if w.gameState == PLAYING then w.(gameState := PAUSED)
    else if w.gameState == PAUSED then w.(gameState := PLAYING, lastMoveTime := now)
    else w
  }

  lemma PauseTogglesPlayingAndPaused(w: World, now: real)
    ensures var w' := PauseToggled(w, now);
      && (w.gameState != PLAYING && w.gameState != PAUSED ==> w' == w)
      && (w.gameState == PLAYING ==> PauseToggled(w', now) == w.(lastMoveTime := now))
  {
  }

  /** A steering input: the requested heading becomes the committed heading
      turned 90 degrees, so it is never that heading or its reverse. */
  function Steered(w: World, clockwise: bool): (r: World)
    ensures r.nextDirection != Opposite(w.direction) && r.nextDirection != w.direction
    ensures r == w.(nextDirection := r.nextDirection)
  {
    w.(nextDirection := if clockwise then TurnRight(w.direction) else TurnLeft(w.direction))
  }

  /** A throttle input: the speed effect runs only when the throttle value
      actually changes. */
  function Throttled(w: World, t: int): (r: World)
    ensures r.throttle == t
    ensures r == w.(throttle := t, speed := r.speed)
    ensures t == w.throttle ==> r.speed == w.speed
    ensures t != w.throttle ==> r.speed == ThrottleToSpeed(t)
    ensures 0 <= t <= 100 && t != w.throttle ==> MIN_SPEED <= r.speed <= INITIAL_SPEED
  {
    if t == w.throttle then w else w.(throttle := t, speed := ThrottleToSpeed(t))
  }

  /** Every press turns from the committed heading, so pressing the same way
      twice between ticks requests the same heading as pressing once, and
      pressing one way then the other never requests the reverse: no U-turn. */
  lemma SteerNeverReverses(w: World, clockwise: bool)
    ensures Steered(Steered(w, clockwise), clockwise) == Steered(w, clockwise)
    ensures Steered(Steered(w, clockwise), !clockwise).nextDirection != Opposite(w.direction)
  {
  }
}

=== FILE: safety.dfy ===
/** What a session keeps true from `startGame` on (src/App.tsx): lives
    between one and three, the player and its whole trail on the grid, at
    the end of that trail, teleport targets in the interior, the tick
    interval and the throttle in range, and a score that only grows; and,
    for a session started on the live viewport, the same for the opponent
    and its trail. */
module Safety {
  import opened Types
  import opened Grid
  import opened Controls
  import opened Generation
  import opened Rules

  predicate TrailOnGrid(t: seq<Point>, cols: int, rows: int)
  {
    forall k :: 0 <= k < |t| ==> InBounds(t[k], cols, rows)
  }

  /** The player's half of the session invariant. Movement reads the live
      grid, so this half holds whatever viewport the session was started on. */
  predicate PlayerSafe(w: World, cols: int, rows: int)
  {
    && 1 <= w.lives <= INITIAL_LIVES
    && 0 <= w.score && 0 <= w.highScore
    && SpeedInRange(w.speed)
    && 0 <= w.throttle <= 100
    && |w.playerTrail| > 0 && w.playerTrail[|w.playerTrail| - 1] == w.playerPos
    && TrailOnGrid(w.playerTrail, cols, rows)
    && TargetsInside(w.obstacles, cols, rows)
  }

  /** The opponent's half: its trail is on the grid and ends at its cell. */
  predicate OpponentOnGrid(w: World, cols: int, rows: int)
  {
    && |w.opponentTrail| > 0 && w.opponentTrail[|w.opponentTrail| - 1] == w.opponentPos
    && TrailOnGrid(w.opponentTrail, cols, rows)
  }

  /** The whole invariant of a session started on the live viewport. */
  predicate Safe(w: World, cols: int, rows: int)
  {
    PlayerSafe(w, cols, rows) && OpponentOnGrid(w, cols, rows)
  }

  /** In a player-safe state the player is on the grid and still has a life;
      in a safe state the opponent is on the grid as well. */
  lemma SafeVehiclesOnGrid(w: World, cols: int, rows: int)
    requires PlayerSafe(w, cols, rows)
    ensures InBounds(w.playerPos, cols, rows)
    ensures OpponentOnGrid(w, cols, rows) ==> InBounds(w.opponentPos, cols, rows)
    ensures w.lives >= 1
  {
    assert InBounds(w.playerTrail[|w.playerTrail| - 1], cols, rows);
    if OpponentOnGrid(w, cols, rows) {
      assert InBounds(w.opponentTrail[|w.opponentTrail| - 1], cols, rows);
    }
  }

  /** `startGame` on a live grid of at least 11 by 11 cells (so that the
      fixed spawn cell (10, 10) is on it), with a field whose teleport
      targets are in the interior, starts a player-safe session with score 0
      and the old high score, whatever viewport placed the opponent; when
      that viewport is the live one the session is safe. */
  lemma ResetIsSafe(w: World, cols: int, rows: int, viewCols: int, viewRows: int, obstacles: seq<Obstacle>,
                    now: real)
    requires cols >= 11 && rows >= 11
    requires w.highScore >= 0
    requires TargetsInside(obstacles, cols, rows)
    ensures PlayerSafe(Reset(w, viewCols, viewRows, obstacles, now), cols, rows)
    ensures viewCols == cols && viewRows == rows ==> Safe(Reset(w, viewCols, viewRows, obstacles, now), cols, rows)
    ensures Reset(w, viewCols, viewRows, obstacles, now).score == 0
    ensures Reset(w, viewCols, viewRows, obstacles, now).highScore == w.highScore
    ensures Reset(w, viewCols, viewRows, obstacles, now).lives == INITIAL_LIVES
    ensures Reset(w, viewCols, viewRows, obstacles, now).gameState == PLAYING
  {
    var r := Reset(w, viewCols, viewRows, obstacles, now);
    assert TrailOnGrid(r.playerTrail, cols, rows);
    if viewCols == cols && viewRows == rows {
      assert TrailOnGrid(r.opponentTrail, cols, rows);
    }
  }

  /** `startGame` with a generated field on a live grid of at least 11 by
      11 cells: the session is player-safe when the closure's viewport is the
      live one or has no room for candidates (the 0x0 viewport), and safe when
      it is the live one. */
  lemma GeneratedStartIsSafe(w: World, width: nat, height: nat, viewWidth: nat, viewHeight: nat,
                             obstacles: seq<Obstacle>, draws: seq<real>, theme: string, now: real)
    requires UnitDraws(draws)
    requires 6 * Budget(CellsAcross(viewWidth), CellsAcross(viewHeight)) <= |draws|
    requires GeneratedField(obstacles, draws, CellsAcross(viewWidth), CellsAcross(viewHeight), theme)
    ensures (viewWidth == width && viewHeight == height) || Budget(CellsAcross(viewWidth), CellsAcross(viewHeight)) == 0 ==>
      CellsAcross(width) >= 11 && CellsAcross(height) >= 11 && w.highScore >= 0 ==>
      PlayerSafe(Reset(w, CellsAcross(viewWidth), CellsAcross(viewHeight), obstacles, now),
                 CellsAcross(width), CellsAcross(height))
    ensures (viewWidth == width && viewHeight == height &&
             CellsAcross(width) >= 11 && CellsAcross(height) >= 11 && w.highScore >= 0) ==>
      Safe(Reset(w, CellsAcross(viewWidth), CellsAcross(viewHeight), obstacles, now),
           CellsAcross(width), CellsAcross(height))
  {
    var cols, rows := CellsAcross(width), CellsAcross(height);
    var viewCols, viewRows := CellsAcross(viewWidth), CellsAcross(viewHeight);
    if cols >= 11 && rows >= 11 && w.highScore >= 0 {
      if viewWidth == width && viewHeight == height {
        GeneratedTargetsInside(obstacles, draws, cols, rows, theme);
        ResetIsSafe(w, cols, rows, viewCols, viewRows, obstacles, now);
      } else if Budget(viewCols, viewRows) == 0 {
        EmptyBudgetHasNoTargets(obstacles, draws, viewCols, viewRows, theme, cols, rows);
        ResetIsSafe(w, cols, rows, viewCols, viewRows, obstacles, now);
      }
    }
  }


  /** A hit keeps a player-safe state player-safe, never touches the
      opponent, and never lowers the score or the high score. */
  lemma HitEffectSafe(w: World, cols: int, rows: int, now: real)
    requires PlayerSafe(w, cols, rows)
    ensures PlayerSafe(HitEffect(w, now), cols, rows)
    ensures HitEffect(w, now).opponentTrail == w.opponentTrail && HitEffect(w, now).opponentPos == w.opponentPos
    ensures HitEffect(w, now).score == w.score
    ensures HitEffect(w, now).highScore >= w.highScore
  {
    if now >= w.invulnerableUntil && w.lives > 1 {
      SafeVehiclesOnGrid(w, cols, rows);
      assert TrailOnGrid([w.playerPos], cols, rows);
    }
  }

  /** Appending an on-grid cell keeps a trail on the grid. */
  lemma ExtendTrail(t: seq<Point>, c: Point, cols: int, rows: int)
    requires TrailOnGrid(t, cols, rows) && InBounds(c, cols, rows)
    ensures TrailOnGrid(t + [c], cols, rows)
  {
    assert forall k :: 0 <= k < |t| ==> (t + [c])[k] == t[k];
  }

  /** An accepted cell is on the grid: the candidate passed the bounds
      check, and a teleport target lies in the interior. */
  lemma AcceptedOnGrid(cand: Point, trail: seq<Point>, opponentTrail: seq<Point>, obs: seq<Obstacle>,
                       cols: int, rows: int)
    requires TargetsInside(obs, cols, rows)
    ensures var v := Resolve(cand, trail, opponentTrail, obs, cols, rows);
      v.Accepted? ==> InBounds(v.cell, cols, rows)
  {
    var f := FirstNear(obs, cand);
    if InBounds(cand, cols, rows) && f.Some? && obs[f.value].target.Some? {
      assert 2 <= obs[f.value].target.value.x <= cols - 3;
      assert 2 <= obs[f.value].target.value.y <= rows - 3;
    }
  }

  /** The player's step keeps a player-safe state player-safe (an accepted
      cell is on the grid, a hit keeps the invariant) and a safe state safe.
      Whatever the state, the score grows by at most one and the high score
      never falls. */
  lemma PlayerStepSafe(w: World, cols: int, rows: int, now: real)
    ensures PlayerSafe(w, cols, rows) ==> PlayerSafe(PlayerStep(w, cols, rows, now), cols, rows)
    ensures Safe(w, cols, rows) ==> Safe(PlayerStep(w, cols, rows, now), cols, rows)
    ensures w.score <= PlayerStep(w, cols, rows, now).score <= w.score + 1
    ensures PlayerStep(w, cols, rows, now).highScore >= w.highScore
  {
    var committed := w.(direction := w.nextDirection);
    var cand := Step(w.playerPos, w.nextDirection);
    PlayerStepOutcome(w, cols, rows, now);
    if !PlayerSafe(w, cols, rows) {
      HitEffectCases(committed, now);
      return;
    }
    match Resolve(cand, w.playerTrail, w.opponentTrail, w.obstacles, cols, rows)
    case Blocked(_) =>
      HitEffectSafe(committed, cols, rows, now);
    case Accepted(cell, effect) =>
      AcceptedOnGrid(cand, w.playerTrail, w.opponentTrail, w.obstacles, cols, rows);
      ExtendTrail(w.playerTrail, cell, cols, rows);
      SpeedStaysInRange(w.speed, w.throttle);
      assert SpeedInRange(ApplyEffect(w.speed, effect));
  }

  /** An opponent move extends its trail by one legal, hence on-grid, cell. */
  lemma OpponentStepKeepsOpponentOnGrid(w: World, playerPos: Point, playerTrail: seq<Point>, cols: int, rows: int,
                                        persistDraw: real, pickDraw: real)
    requires 0.0 <= pickDraw < 1.0
    requires OpponentOnGrid(w, cols, rows)
    ensures OpponentOnGrid(OpponentStep(w, playerPos, playerTrail, cols, rows, persistDraw, pickDraw), cols, rows)
  {
    if w.opponentAlive {
      var legal := LegalMoves(w.opponentPos, w.opponentDirection, cols, rows, w.obstacles,
                              playerPos, playerTrail, w.opponentTrail);
      if |legal| > 0 {
        var d := ChooseHeading(legal, w.opponentDirection, persistDraw, pickDraw);
        var c := Step(w.opponentPos, d);
        assert IsLegal(d, w.opponentPos, w.opponentDirection, cols, rows, w.obstacles,
                       playerPos, playerTrail, w.opponentTrail);
        ExtendTrail(w.opponentTrail, c, cols, rows);
      }
    }
  }

  /** The opponent's step keeps a player-safe state player-safe and a safe
      state safe, for any player cell and trail it reads. Whatever the state,
      the score grows by 0 or 500 and the high score is unchanged. */
  lemma OpponentStepSafe(w: World, playerPos: Point, playerTrail: seq<Point>, cols: int, rows: int,
                         persistDraw: real, pickDraw: real)
    requires 0.0 <= pickDraw < 1.0
    ensures PlayerSafe(w, cols, rows) ==>
      PlayerSafe(OpponentStep(w, playerPos, playerTrail, cols, rows, persistDraw, pickDraw), cols, rows)
    ensures Safe(w, cols, rows) ==>
      Safe(OpponentStep(w, playerPos, playerTrail, cols, rows, persistDraw, pickDraw), cols, rows)
    ensures var s := OpponentStep(w, playerPos, playerTrail, cols, rows, persistDraw, pickDraw).score;
      s == w.score || s == w.score + 500
    ensures OpponentStep(w, playerPos, playerTrail, cols, rows, persistDraw, pickDraw).highScore == w.highScore
  {
    if OpponentOnGrid(w, cols, rows) {
      OpponentStepKeepsOpponentOnGrid(w, playerPos, playerTrail, cols, rows, persistDraw, pickDraw);
    }
  }


  /** Oscillation keeps every teleport target where it was. */
  lemma MoveWallsKeepsTargets(obs: seq<Obstacle>, sines: seq<real>, cols: int, rows: int)
    requires |sines| == |obs|
    requires TargetsInside(obs, cols, rows)
    ensures TargetsInside(MoveWalls(obs, sines), cols, rows)
  {
    var r := MoveWalls(obs, sines);
    forall k | 0 <= k < |r| && r[k].target.Some?
      ensures 2 <= r[k].target.value.x <= cols - 3 && 2 <= r[k].target.value.y <= rows - 3
    {
      assert r[k].target == obs[k].target;
    }
  }

  /** One animation frame keeps a player-safe state player-safe and a safe
      state safe. Whatever the state, the score and the high score never
      decrease within a session, and a tick adds at most 501 to the score. */
  lemma FramePreservesSafe(w: World, cols: int, rows: int, time: real, now: real,
                           persistDraw: real, pickDraw: real, sines: seq<real>)
    requires 0.0 <= pickDraw < 1.0
    requires |sines| == |w.obstacles|
    ensures var w' := Frame(w, cols, rows, time, now, persistDraw, pickDraw, sines);
      && (PlayerSafe(w, cols, rows) ==> PlayerSafe(w', cols, rows))
      && (Safe(w, cols, rows) ==> Safe(w', cols, rows))
      && w.score <= w'.score <= w.score + 501
      && w.highScore <= w'.highScore
  {
    if TargetsInside(w.obstacles, cols, rows) {
      MoveWallsKeepsTargets(w.obstacles, sines, cols, rows);
    }
    if w.gameState == PLAYING && time - w.lastMoveTime >= w.speed {
      PlayerStepSafe(w, cols, rows, now);
      var p := PlayerStep(w, cols, rows, now);
      OpponentStepSafe(p, w.playerPos, w.playerTrail, cols, rows, persistDraw, pickDraw);
    }
  }

  /** Pausing, steering and any throttle setting in [0,100] keep a
      player-safe state player-safe and a safe state safe, and leave the
      score, the lives and both vehicles alone. */
  lemma InputsPreserveSafe(w: World, cols: int, rows: int, now: real, clockwise: bool, t: int)
    requires PlayerSafe(w, cols, rows)
    requires 0 <= t <= 100
    ensures PlayerSafe(PauseToggled(w, now), cols, rows)
    ensures PlayerSafe(Steered(w, clockwise), cols, rows)
    ensures PlayerSafe(Throttled(w, t), cols, rows)
    ensures Safe(w, cols, rows) ==>
      Safe(PauseToggled(w, now), cols, rows) && Safe(Steered(w, clockwise), cols, rows) && Safe(Throttled(w, t), cols, rows)
    ensures PauseToggled(w, now).score == Steered(w, clockwise).score == Throttled(w, t).score == w.score
    ensures Throttled(w, t).playerTrail == w.playerTrail && Throttled(w, t).lives == w.lives
  {
    SpeedStaysInRange(w.speed, t);
  }

  /** A session on its last life, about to leave the grid to the left, with
      the opponent in the top-left corner and boxed in by its own trail. */
  const BOXED_IN: World := World(
    gameState := PLAYING, score := 10, highScore := 0,
    playerPos := Point(0, 5), playerTrail := [Point(0, 5)], direction := LEFT, nextDirection := LEFT,
    obstacles := [], speed := INITIAL_SPEED, throttle := 0, lives := 1, invulnerableUntil := 0.0,
    opponentPos := Point(0, 0), opponentTrail := [Point(1, 0), Point(0, 0)], opponentDirection := UP,
    opponentAlive := true, lastMoveTime := 0.0)

  /** The high score is taken from the score the game-over callback captured:
      when the player's last life ends in the same tick in which the opponent
      runs out of moves, the 500-point bonus lands in the score after the
      session ended and never reaches the high score. */
  lemma SameTickBonusMissesHighScore()
    ensures Safe(BOXED_IN, 11, 11)
    ensures var w' := Tick(BOXED_IN, 11, 11, 5000.0, 0.5, 0.0);
      && w'.gameState == GAMEOVER
      && !w'.opponentAlive
      && w'.score == 510
      && w'.highScore == 10
  {
    var w := BOXED_IN;
    assert TrailOnGrid(w.playerTrail, 11, 11);
    assert TrailOnGrid(w.opponentTrail, 11, 11);
    assert Resolve(Point(-1, 5), w.playerTrail, w.opponentTrail, [], 11, 11) == Blocked(OffGrid);
    var p := PlayerStep(w, 11, 11, 5000.0);
    assert p == w.(direction := LEFT, gameState := GAMEOVER, highScore := 10);
    assert !IsLegal(UP, Point(0, 0), UP, 11, 11, [], Point(0, 5), [Point(0, 5)], w.opponentTrail);
    assert !IsLegal(DOWN, Point(0, 0), UP, 11, 11, [], Point(0, 5), [Point(0, 5)], w.opponentTrail);
    assert !IsLegal(LEFT, Point(0, 0), UP, 11, 11, [], Point(0, 5), [Point(0, 5)], w.opponentTrail);
    assert !IsLegal(RIGHT, Point(0, 0), UP, 11, 11, [], Point(0, 5), [Point(0, 5)], w.opponentTrail);
    assert LegalMoves(Point(0, 0), UP, 11, 11, [], Point(0, 5), [Point(0, 5)], w.opponentTrail) == [];
  }

  /** The player at (10, 10) heading right and the opponent at (12, 10)
      heading left, one free cell between them. */
  const HEAD_ON: World := World(
    gameState := PLAYING, score := 0, highScore := 0,
    playerPos := Point(10, 10), playerTrail := [Point(10, 10)], direction := RIGHT, nextDirection := RIGHT,
    obstacles := [], speed := INITIAL_SPEED, throttle := 0, lives := 3, invulnerableUntil := 0.0,
    opponentPos := Point(12, 10), opponentTrail := [Point(12, 10)], opponentDirection := LEFT,
    opponentAlive := true, lastMoveTime := 0.0)

  /** Each vehicle checks the other's trail as it was before the tick, so
      both can enter the same free cell in the same tick: when the opponent
      keeps its heading, both end on (11, 10). */
  lemma HeadOnSameCell()
    ensures Safe(HEAD_ON, 30, 30)
    ensures var w' := Tick(HEAD_ON, 30, 30, 5000.0, 0.5, 0.0);
      && w'.playerPos == Point(11, 10)
      && w'.opponentPos == Point(11, 10)
      && w'.score == 1
  {
    var w := HEAD_ON;
    assert TrailOnGrid(w.playerTrail, 30, 30);
    assert TrailOnGrid(w.opponentTrail, 30, 30);
    assert Resolve(Point(11, 10), w.playerTrail, w.opponentTrail, [], 30, 30) == Accepted(Point(11, 10), Plain);
    var p := PlayerStep(w, 30, 30, 5000.0);
    assert p.playerPos == Point(11, 10) && p.score == 1;
    assert IsLegal(LEFT, Point(12, 10), LEFT, 30, 30, [], Point(10, 10), [Point(10, 10)], [Point(12, 10)]);
  }

  /** A session started on the 0x0 viewport the keydown listener holds
      until `direction` or `gameState` first changes spawns the opponent at
      (-10,-10), where every neighbour is off any grid: whatever the player
      does, the first tick kills the opponent and adds 500 points on top of
      the player's step. */
  lemma ZeroViewportStartLosesOpponent(w: World, obstacles: seq<Obstacle>, now: real, cols: int, rows: int,
                                       tickNow: real, persistDraw: real, pickDraw: real)
    requires 0.0 <= pickDraw < 1.0
    ensures var s := Reset(w, CellsAcross(0), CellsAcross(0), obstacles, now);
      var t := Tick(s, cols, rows, tickNow, persistDraw, pickDraw);
      && s.opponentPos == Point(-10, -10)
      && !t.opponentAlive
      && t.score == PlayerStep(s, cols, rows, tickNow).score + 500
  {
    var s := Reset(w, CellsAcross(0), CellsAcross(0), obstacles, now);
    var p := PlayerStep(s, cols, rows, tickNow);
    PlayerStepOutcome(s, cols, rows, tickNow);
    assert p.opponentAlive && p.opponentPos == Point(-10, -10) by {
      match Resolve(Step(s.playerPos, s.nextDirection), s.playerTrail, s.opponentTrail, s.obstacles, cols, rows)
      case Blocked(_) =>
        HitEffectCases(s.(direction := s.nextDirection), tickNow);
      case Accepted(_, _) =>
    }
    var legal := LegalMoves(p.opponentPos, p.opponentDirection, cols, rows, p.obstacles,
                            s.playerPos, s.playerTrail, p.opponentTrail);
    forall d | true
      ensures d !in legal
    {
      assert !InBounds(Step(p.opponentPos, d), cols, rows);
    }
    assert |legal| == 0;
  }
}

=== FILE: types.dfy ===
/** The game's vocabulary (src/types.ts): headings, grid cells, obstacles,
    game states, and the constants the engine depends on. */
module Types {

  /** An optional field, as the `?:` members of an obstacle. */
  datatype Option<T> = None | Some(value: T)

  /** A compass heading on the grid; y grows downwards. */
  datatype Direction = UP | DOWN | LEFT | RIGHT

  /** A grid cell. */
  datatype Point = Point(x: int, y: int)

  /** The eight obstacle tags; this version has no weapon pickup. */
  datatype ObstacleType = WALL | BOOST | SLOW | TELEPORT | MOVING_WALL | PILLAR | DECORATION | GIANT_TREE

  /** The axis a moving wall oscillates along. */
  datatype Axis = X | Y

  /** Obstacle identifiers: `obs-<i>` for the i-th generation candidate, and the
      two fixed landmark ids `monolith-main` and `giant-tree`. */
  datatype ObstacleId = ObsNumbered(index: nat) | MonolithMain | GiantTreeMain

  /** An obstacle. Its position is real because moving walls oscillate; the
      teleport target and the oscillation parameters are optional and
      independent of each other. */
  datatype Obstacle = Obstacle(
    id: ObstacleId,
    x: real,
    y: real,
    width: real,
    height: real,
    kind: ObstacleType,
    target: Option<Point>,
    startX: Option<real>,
    startY: Option<real>,
    moveRange: Option<real>,
    moveSpeed: Option<real>,
    moveAxis: Option<Axis>)

  datatype GameState = START | PLAYING | GAMEOVER | PAUSED

  const GRID_SIZE: int := 24
  const WORLD_SCALE: int := 8
  /** Tick interval in milliseconds at throttle 0, and the boost floor. */
  const INITIAL_SPEED: real := 120.0
  const MIN_SPEED: real := 50.0
  const INITIAL_LIVES: int := 3
  const INVULNERABILITY_TIME: real := 2000.0

  /** The rotation order used by the steering input. */
  const ORDER: seq<Direction> := [UP, RIGHT, DOWN, LEFT]

  /** Position of a heading in ORDER. */
  function IndexOf(d: Direction): (i: nat)
    ensures i < |ORDER| && ORDER[i] == d
  {
    match d
    case UP => 0
    case RIGHT => 1
    case DOWN => 2
    case LEFT => 3
  }

  /** There are exactly four headings and ORDER lists each once. */
  lemma DirectionsAreFour()
    ensures |ORDER| == 4
    ensures forall d: Direction :: d in ORDER
    ensures forall i, j :: 0 <= i < j < |ORDER| ==> ORDER[i] != ORDER[j]
  {
    forall d: Direction ensures d in ORDER {
      assert ORDER[IndexOf(d)] == d;
    }
  }

  /** There are exactly four game states. */
  lemma GameStatesAreFour(g: GameState)
    ensures g == START || g == PLAYING || g == GAMEOVER || g == PAUSED
    ensures |{START, PLAYING, GAMEOVER, PAUSED}| == 4
  {
  }

  /** There are exactly eight obstacle tags. */
  lemma ObstacleTypesAreEight(t: ObstacleType)
    ensures t in {WALL, BOOST, SLOW, TELEPORT, MOVING_WALL, PILLAR, DECORATION, GIANT_TREE}
    ensures |{WALL, BOOST, SLOW, TELEPORT, MOVING_WALL, PILLAR, DECORATION, GIANT_TREE}| == 8
  {
  }

  /** Any teleport target can be combined with any oscillation setting. */
  lemma OptionalFieldsIndependent(t: Option<Point>, axis: Option<Axis>, range: Option<real>, speed: Option<real>)
    ensures exists o: Obstacle :: o.target == t && o.moveAxis == axis && o.moveRange == range && o.moveSpeed == speed
  {
    var o := Obstacle(ObsNumbered(0), 0.0, 0.0, 1.0, 1.0, WALL, t, None, None, range, speed, axis);
    assert o.target == t && o.moveAxis == axis && o.moveRange == range && o.moveSpeed == speed;
  }

  /** The tick-interval constants are ordered, a session starts with three
      lives, and a hit buys two seconds of invulnerability. */
  lemma ConstantsAgree()
    ensures MIN_SPEED < INITIAL_SPEED
    ensures INITIAL_LIVES == 3 && INVULNERABILITY_TIME == 2000.0
  {
  }
}
